=== FILE: README.md ===
# OllamaChat client core in Dafny

This project models the logic of the OllamaChat browser client
(`js/script.js` and `js/localization.js`) and proves properties of it.
The client talks to a local Ollama server and keeps very little state:

- the conversation history;
- the list of attached files;
- a busy flag;
- the raw markdown of the reply being streamed.

It then builds text from that state.

The modules follow the parts of the client:

- `Strings`: the JavaScript string operations the client relies on. These are `trim`, `indexOf`, `includes`, first-match `replace`, `split`, `join`, `filter`, `String(n)` and the client's `escapeHTML`.
- `ThinkTags`: `processThinkTagsInMarkdown` works like a global regular-expression replace. It turns each `<think>…</think>` span into a numbered placeholder and records the span's text. `renderThinkBlocksHTML` puts a widget in each placeholder's place through `replace` with a replacement string, so `$` patterns in the widget are expanded. The module proves the round trip: put the original spans back literally and you get the input again.
- `StreamAssembly`: the text a streamed reply adds. Chunks are split into non-blank lines and each line is parsed. Content pieces that contain one of four reasoning phrases are wrapped in think tags.
- `Attachments`: how a picked file is read and converted, the PDF page joining, and the spreadsheet-to-markdown formatter.
- `Payload`: the outbound chat request. It holds the attachment preamble, the `Content of` blocks, the image list and the message order, plus the user turn kept in the history.
- `ChatApp`: the class `ChatClient` holding the globals of `js/script.js`. It covers `sendMessage` (cut at its first `await` into `BeginSend` and `CompleteSend`), the stream loop, `updateStreamingMessage`, `finalizeAiMessage` and the attachment list.
- `ModelAdmin`: the Ollama URL check, the model type shown on a model card, the card id, and the `ollama pull` prefix strip.
- `Localization`: the class `Localizer` for `js/localization.js`. It covers `t`, the start-up language choice, `loadLanguage` with its single English fallback, and the language selector.

Foreign code becomes parameters or abstract inputs:

- `JSON.parse` of a stream line is a function `parse: string -> ParsedLine`.
- What the network delivers is a `Transport` value: a rejected fetch, a non-ok response, or the decoded chunks with an optional read failure.
- The fetched translation tables are a function from language code to an optional table.
- pdf.js output is a list of pages of text items.
- SheetJS output is a list of named sheets of cell rows. A row can be sparse: a cell the sheet lacks is a hole (`Missing`), distinct from a `null` cell.
- File ids are given with the files.

## Model

| member | source | states |
|---|---|---|
| ThinkTags.ThinkSyntaxValid | js/script.js:40-41 | The client's tags and placeholder prefix are non-empty, and the prefix cannot overlap itself. So the first placeholder found is always the one that was inserted. |
| ThinkTags.FindSpan | js/script.js:249 | A match starts at or after the search position. Its closing tag begins after the opening tag ends, and it fits in the text. |
| ThinkTags.SpanTags | js/script.js:249 | A reported match begins with `<think>` and its closing part is `</think>`. |
| ThinkTags.FindSpanIsLeftmost | js/script.js:249 | The match is the leftmost opening tag, paired with the first closing tag after it (the lazy `[\s\S]*?`). There is no match exactly when no opening tag has a closing tag after it. |
| ThinkTags.ExtractIds | js/script.js:248-250 | Block ids are consecutive from the counter's starting value: 0, 1, 2, … for a call. |
| ThinkTags.NoPairUnchanged | js/script.js:249-256 | No block is recorded exactly when there is no complete tag pair. Text without a pair, such as an unclosed `<think>` mid-stream, comes back unchanged. |
| ThinkTags.SpanContentHasNoCloseTag | js/script.js:249 | The inner text of a match holds no `</think>`. |
| ThinkTags.BlocksHaveNoCloseTag | js/script.js:249-254 | No recorded block contains a closing tag. |
| ThinkTags.RenderThinkBlocksHtml | js/script.js:260-292 | With no blocks the HTML is untouched. Otherwise the HTML is wrapped in the accordion. Then each block's placeholder, in block order, is replaced through `replace` with the widget as a replacement string, so the widget's `$$`, `$&`, `` $` `` and `$'` are expanded. |
| Strings.ReplaceFirstJsWithoutDollar | js/script.js:288 | A replacement string without `$` is inserted verbatim, so `replace` then acts as a literal replacement. |
| ThinkTags.RestoreAsWrittenWithoutDollar | js/script.js:266-289 | When no widget holds a `$`, the re-insertion as written gives the same HTML as the literal one. |
| ThinkTags.DollarWidgetCollapses | js/script.js:288 | As written, a widget holding `$$x$$` (display math in a think block) is inserted as `$x$`, where the literal re-insertion gives `$$x$$`. |
| ThinkTags.RestorePlacesWidget | js/script.js:266-289 | Re-inserted literally, the first block's widget takes exactly the place of its placeholder when the text before it holds no placeholder prefix, whatever characters the widget holds. |
| ThinkTags.FirstPlaceholder | js/script.js:288 | Text free of the placeholder prefix, then a placeholder: `indexOf` finds that placeholder right after the text. |
| ThinkTags.ReplaceAfterClean | js/script.js:288 | So a literal first-match replace swaps exactly the placeholder that was inserted there for the replacement. |
| ThinkTags.RestoreExtract | js/script.js:246-289 | From any position, putting the blocks back as tagged spans restores the text. |
| ThinkTags.RoundTrip | js/script.js:246-289 | For any valid tag syntax and text without the placeholder prefix, extraction followed by putting every block back as `open + content + close` gives back the input. |
| ThinkTags.ThinkRoundTrip | js/script.js:246-258 | The same round trip for the client's own tags: `processThinkTagsInMarkdown` loses nothing when the markdown holds no `%%THINK_BLOCK_ID_`. |
| ThinkTags.SingleSpan | js/script.js:249-256 | A lone tagged span whose text holds no closing tag becomes placeholder 0 and block 0 with that text. |
| StreamAssembly.PieceTextUnchangedIff | js/script.js:429-435 | A piece is passed on untouched exactly when it contains none of "AI Thoughts", "Let me", "I'll", "First,". Otherwise it is wrapped in think tags. |
| StreamAssembly.LineText | js/script.js:423-437 | A line adds nothing exactly when it does not parse, has no `message.content`, or has empty content. |
| StreamAssembly.ChunkTextAtLineBreak | js/script.js:421-422 | Two texts joined by a line break inside one chunk add the text of the first, then the text of the second. |
| StreamAssembly.StreamTextAppend | js/script.js:418-439 | The reply of a stream is the reply of its first chunks followed by the reply of the rest. |
| StreamAssembly.BlankLinesNeverParsed | js/script.js:422 | Blank lines never reach the parser: parsers that agree on non-blank lines give the same reply. |
| StreamAssembly.SingleLineChunk | js/script.js:422-437 | A chunk of one non-blank line adds exactly that line's text. |
| StreamAssembly.SplitLineIsLost | js/script.js:419-424 | Chunks are not independent. A line cut across two chunks, each half unparseable, adds nothing, although the whole line would add its text. |
| StreamAssembly.WrappedPieceIsOneBlock | js/script.js:429-431 | A wrapped lead-in piece without a closing tag of its own is shown as exactly one think block holding the piece. |
| Attachments.ReadModeCases | js/script.js:640-662 | The reader choice is ArrayBuffer, then DataURL, then text, then text with a warning, each under its own condition. The four conditions are exclusive and cover every file. |
| Attachments.BinaryReadIffConverted | js/script.js:605-618 | A file is read as an ArrayBuffer exactly when `onload` converts it (PDF or spreadsheet). |
| Attachments.ExtractTextFromPdf | js/script.js:511-530 | Missing library: the fixed message. A failure: the bracketed error text. Otherwise: the pages' items joined by spaces, a blank line after each page, the whole trimmed. |
| Attachments.OnePagePdf | js/script.js:519-525 | A one-page PDF gives its items joined by spaces and trimmed. |
| Attachments.PdfTextEmptyIff | js/script.js:525 | The PDF text is empty exactly when the pages hold only white space. |
| Attachments.EscapePipesSpec | js/script.js:567 | Every `\|` of an escaped data cell has a backslash just before it. Escaping empties only the empty string. |
| Attachments.DataCellEmptyIff | js/script.js:567 | `String(cell \|\| '')`: a data cell renders as nothing exactly when its value is falsy. |
| Attachments.Padded | js/script.js:563-565 | A padded row keeps its cells and is filled with `''` up to the header width. A longer row is not truncated. |
| Attachments.PadRow | js/script.js:563-565 | The padding loop yields the padded row. |
| Attachments.RenderDataLine | js/script.js:563-568 | One data row becomes one table line of its padded, escaped cells. |
| Attachments.AppendDataLines | js/script.js:561-569 | The data-row loop appends the lines of rows 1 to the last, in order. |
| Attachments.AppendSheetBody | js/script.js:554-572 | A sheet with a non-empty first row gets a header line, a separator line and the data lines. The separator has `---` under each header cell and an empty cell under each hole of a sparse header row. Any other sheet gets `*Empty sheet*`. |
| Attachments.SeparatorWithoutHoles | js/script.js:559 | A header row without holes gets one `---` per header cell. |
| Attachments.SparseHeaderExample | js/script.js:545-560 | A crosstab header with its first cell missing, then `Q1` and `Q2`, gives `\|  \| Q1 \| Q2 \|` and `\|  \| --- \| --- \|`: the empty column stays empty in the separator. |
| Attachments.AppendSheet | js/script.js:544-577 | Per sheet: the heading when there are several sheets, the body, then the spacer unless it is the last sheet. |
| Attachments.ExtractDataFromSpreadsheet | js/script.js:532-589 | The `forEach` over the sheets yields the trimmed concatenation of every sheet's section. |
| Attachments.OneSheet | js/script.js:549-577 | A one-sheet workbook has neither heading nor spacer. |
| Attachments.SheetExample | js/script.js:544-580 | A sheet with header `A`, `B` and data row `1`, `2` becomes the three lines `\| A \| B \|`, `\| --- \| --- \|` and `\| 1 \| 2 \|`, with no trailing line break. |
| Payload.ContentBlock | js/script.js:367-371 | A file gets no `Content of` block exactly when it is an image. |
| Payload.ImageData | js/script.js:368 | An image payload is present exactly when the data URL has a comma. |
| Payload.Images | js/script.js:367-368 | There are never more image payloads than files. |
| Payload.ImagesOfImageFiles | js/script.js:367-368 | The image payloads are exactly the image data of the image files, in list order. |
| Payload.BuildUserMessage | js/script.js:357-384 | The loop over the attachments builds the specified user turn. That is the preamble with one line per file, the content blocks of non-image files, the typed-message header, and the text or `(No typed message)`. `images` is set only when non-empty. |
| Payload.ImagesPresentIff | js/script.js:381-383 | `images` is sent exactly when at least one attached file is an image. |
| Payload.FileLineInOrder | js/script.js:362-365 | File `i`'s `- "name" (type)` line follows the preamble header and the lines of the files before it, so the lines are in list order. |
| Payload.PayloadOrder | js/script.js:377-384 | A system message is present exactly when the trimmed prompt is non-empty, and then only first. The history follows unchanged and in order. The current user turn is last. |
| Payload.HistoryUserContentShape | js/script.js:404-408 | With files, the history entry is `(Files: a, b) text`. When the text is empty, the trim drops the trailing space. |
| ChatApp.HistoryAfterCases | js/script.js:399-440 | A non-ok or failed fetch leaves the history unchanged. A failed read adds only the user turn. A complete read adds the user turn, then the reply. Earlier entries are kept, and no system turn is added. |
| ChatApp.PendingReadsSound | js/script.js:592-662 | Each started read is for a name not in the list. Its reader and conversion are the ones chosen for its type and name. |
| ChatApp.PendingReadsComplete | js/script.js:592-597 | Every picked file whose name is not attached gets a read, under its own id. |
| ChatApp.SameNameInOneBatch | js/script.js:593 | The duplicate check sees only the list as it stood when the batch started, so two new files with one name both get a read. |
| ChatApp.FileEntry | js/script.js:600-633 | A read produces no entry exactly when the read fails or the spreadsheet conversion rejects. Otherwise the entry has the read's id, the file's name and its original MIME type. |
| ChatApp.WithoutIdMember | js/script.js:668 | Exactly the entries with the given id are dropped. |
| ChatApp.WithoutIdAppend | js/script.js:668 | The entries that stay keep their order. |
| ChatApp.WithoutIdIdempotent | js/script.js:668 | Removing an id twice removes nothing more. |
| ChatApp.ChatClient.constructor | js/script.js:34-38 | The client starts with an empty history and no attachments. It is not busy and has no reply bubble. |
| ChatApp.ChatClient.BeginSend | js/script.js:330-384 | Empty trimmed text with no files, no model, or a busy client: nothing changes and no request goes out. Otherwise the request carries the payload in order, the client is busy, the reply buffer is `""`, and the trimmed text is kept for the rest of the send. |
| ChatApp.ChatClient.UpdateStreamingMessage | js/script.js:232-244 | The piece is appended to the raw markdown, if there is a bubble. The bubble then shows the think extraction of the whole buffer. |
| ChatApp.ChatClient.HandleLine | js/script.js:423-437 | A parsed line adds its (possibly wrapped) content to the reply and to the raw buffer, or nothing. |
| ChatApp.ChatClient.ReadChunk | js/script.js:421-438 | A chunk's non-blank lines are handled in order. The reply and the raw buffer receive the same text. |
| ChatApp.ChatClient.ReadStream | js/script.js:418-439 | The reply is the text of all chunks in arrival order. The raw buffer receives exactly the same text. |
| ChatApp.ChatClient.FinalizeAiMessage | js/script.js:315-328 | A non-empty buffer is rendered once more through the think extraction. The bubble is then released. |
| ChatApp.ChatClient.ClearAllAttachedFiles | js/script.js:673-677 | The attachment list becomes empty and nothing else changes. |
| ChatApp.ChatClient.Exchange | js/script.js:386-440 | The `try` block raises exactly the transport's failure. The history grows as specified. A complete read leaves the whole reply in the buffer. |
| ChatApp.ChatClient.CompleteSend | js/script.js:386-458 | It continues the send `BeginSend` started, with the trimmed text it kept. The history is extended as specified. The bubble ends with the reply, or with the error text when anything failed. The attachments are always cleared and the busy flag always reset. |
| ChatApp.ChatClient.AddFilesToList | js/script.js:591-665 | The loop starts the specified reads and rejects exactly the files whose names are attached. It adds nothing to the list. |
| ChatApp.ChatClient.CompleteFileRead | js/script.js:600-639 | A successful read appends exactly one entry at the end. A failure adds nothing. Existing entries are unchanged. |
| ChatApp.ChatClient.RemoveSpecificFile | js/script.js:667-671 | The list loses exactly the entries with that id and keeps the rest in order. |
| ModelAdmin.AcceptedUrl | js/script.js:704-705 | A URL is accepted exactly when its trim is non-empty and starts with `http://` or `https://`. The trimmed text is what is stored. |
| ModelAdmin.BothUrlListeners | js/script.js:703-714 | The button has two click listeners (the second at js/script.js:947-959). Together they leave the same stored URL as one listener would: a valid input is taken trimmed, and anything else keeps the current URL. The stored URL stays valid. |
| ModelAdmin.FindFirst | js/script.js:860-861 | `find` returns the first line satisfying the test, or nothing when none does. |
| ModelAdmin.ModelType | js/script.js:860-861 | The shown model type is never empty. |
| ModelAdmin.ModelTypeFromLine | js/script.js:860-861 | The first line starting with `FROM` decides the type. When that line is `FROM x…`, the type is what follows `FROM `. |
| ModelAdmin.ModelTypeWithoutFrom | js/script.js:860-861 | Without a line starting with `FROM`, the type is `Unknown`. |
| ModelAdmin.SanitizeSpec | js/script.js:863 | The card-id suffix keeps the name's length and its ASCII letters and digits. Every other character becomes `-`. |
| ModelAdmin.SanitizeIdempotent | js/script.js:863 | Sanitising twice changes nothing. |
| ModelAdmin.CardIdSameIff | js/script.js:863 | Two names share a card id exactly when they have the same length and agree wherever either has an ASCII letter or digit. |
| ModelAdmin.SkipWhitespace | js/script.js:1020 | The greedy `\s+` run ends at the first non-white-space character or at the end. |
| ModelAdmin.StripPullPrefix | js/script.js:1020 | The strip either leaves the name alone or removes a proper prefix that begins with `ollama` in any case. |
| ModelAdmin.PullCommandStripped | js/script.js:1017-1020 | `ollama pull name`, in any letter case and with any white-space gaps, leaves exactly `name`. |
| ModelAdmin.ModelNameToPull | js/script.js:1017-1025 | No download starts exactly when the trimmed, stripped input is empty. A started download pulls that trimmed, stripped name, which is non-empty. |
| Localization.Translate | js/localization.js:70-72 | `t(key)` is the translation when it is present and non-empty, and otherwise the key. |
| Localization.TranslateNeverBlank | js/localization.js:70-72 | A non-empty key always yields non-empty text. A key without an entry yields itself. |
| Localization.Candidate | js/localization.js:122 | The candidate is the stored preference when it is non-empty. Otherwise it is the browser language up to its first `-`: a prefix of it without `-`, ending at a `-` or at the end. |
| Localization.InheritedNamePasses | js/localization.js:123 | As written, a stored preference of `toString` passes the validation although it is not a supported code. |
| Localization.ResolveAsWritten | js/localization.js:123 | As written, the validated language is the candidate or `en`, and is a supported code or a name every object inherits. |
| Localization.Resolve | js/localization.js:123 | The validated language is always one of the nine supported codes: the candidate or `en`. |
| Localization.ResolveAgrees | js/localization.js:123 | The validation as written and the intended one differ exactly on the names every object inherits. |
| Localization.TranslateElementSpec | js/localization.js:26-53 | An element changes only where its key has a non-empty translation. INPUT and TEXTAREA get the placeholder, others the text content. Tooltips get their title from a non-empty translation of their title key and keep it otherwise. Translating again changes nothing. |
| Localization.Requests | js/localization.js:18-66 | A load requests the language's file. A second request, for English, is made exactly when that fails and the language is not English. |
| Localization.LoadedLanguageSpec | js/localization.js:18-67 | A load installs the requested language when its file loads, else English when that loads. It installs nothing when English itself fails or both fail. It depends only on those two files. |
| Localization.Localizer.constructor | js/localization.js:14-15 | The state starts as English with no strings. |
| Localization.Localizer.T | js/localization.js:70-72 | `t` reads the current table. |
| Localization.Localizer.Install | js/localization.js:22-59 | The success path installs the table, the code and the stored preference. It rewrites every marked element and the dynamic texts. |
| Localization.Localizer.LoadLanguage | js/localization.js:18-67 | It makes the specified requests. On failure of every attempt nothing changes. Otherwise the loaded language is installed with every element rewritten. |
| Localization.Localizer.Startup | js/localization.js:121-125 | The selected language is the candidate validated as written. It is a supported code or an inherited name. It is then loaded: when a load succeeds, the loaded code, its table and the stored preference are installed, every marked element is rewritten and the dynamic texts are refreshed. When every attempt fails nothing changes. |
| Localization.Localizer.StartupIntended | js/localization.js:121-125 | With the intended validation the selected language is always a supported code. It is then loaded with the same full outcome as in `Startup`. |
| Localization.Localizer.SelectLanguage | js/localization.js:128-132 | A selection loads the language. On success the loaded code is installed in full: table, code, stored preference, every marked element and the dynamic texts. When every attempt fails, the selection is still stored and nothing else changes. |
| Strings.EscapeHtmlIsIdentity | js/script.js:56-67 | With the replacement table as written, `escapeHTML` returns its input unchanged. |
| Strings.IntToString | js/script.js:401 | The status code renders as a non-empty decimal, with a minus sign exactly for negatives. |
| Strings.DecimalRoundTrip | js/script.js:401 | The decimal rendering of a status code reads back as the same number. |

## Left out

- Rendering is not modelled. That covers `marked`, Prism, MathJax, Bootstrap widgets, `displayMessage`, `renderAttachedFilesUI`, the accordion HTML, copy buttons and scrolling. A think block's widget is a parameter of `RenderThinkBlocksHtml`, and the bubble's state is its raw markdown.
- `JSON.parse` and `JSON.stringify` are foreign. A stream line's parse is the `parse` parameter, and a request is the `Request` value that would be serialised.
- `fetch`, the stream reader and the `TextDecoder` are I/O. What they deliver is the `Transport` parameter, given as decoded chunks. Multi-byte characters split across chunks are not modelled.
- pdf.js and SheetJS are foreign libraries. Their output is an abstract input: pages of text items, and named sheets of cells. Numeric cells are modelled as integers, because `String` of a fractional number is not modelled. SheetJS exceptions are the `None` workbook of a read outcome.
- The order in which `FileReader` callbacks complete is not modelled. Each `onload` is a call to `CompleteFileRead` and may be made in any order. The accordion id and the file ids (`Date.now`, `Math.random`) are parameters.
- ThinkTags.Extract: `processThinkTagsInMarkdown` is a `replace` whose callback bumps a counter and pushes a block. It is modelled as a recursive function whose counter is a parameter, because the source has no loop of its own to transcribe.
- Attachments.PadRow: the source pads the rows of the parsed workbook in place. The model pads a copy, which is invisible because the workbook is not used afterwards.
- `formatBytes` and the download progress use floating point and are not modelled. The model pull stream, model deletion, `fetchModels`, `getModelDetails` and `updateModelsModal` are network flows and are not modelled either.
- `resetChat` is not modelled, nor is its interleaving with a reply still streaming. The model treats one send as the steps `BeginSend` then `CompleteSend`, with nothing in between.
- Localization.Localizer.LoadLanguage: an exception thrown while rewriting the page after a successful fetch is not modelled. The source would then fall back to English with the new table already installed. The tooltip instance disposal and re-creation is not modelled either.
- Localization.Localizer.T, Localization.Translate: the table is a `map`, so a key naming an inherited object member is not looked up on the prototype. For a key such as `toString` that the language file lacks, the source returns the inherited function, where the model returns the key.
- The duplicate `loadLanguage('en')` at js/localization.js:137 races the start-up load. It is concurrency and is not modelled.
- js/storage.js is not part of this model.
- ChatApp.ChatClient.CompleteSend: when a read fails mid-stream, the source overwrites the bubble's raw markdown with the error text, so the partial reply is not kept.
- ModelAdmin.Sanitize: JavaScript's `/[^a-zA-Z0-9]/g` works on UTF-16 code units, so a character outside the Basic Multilingual Plane becomes `--`. The model's strings are sequences of Unicode scalar values, so such a character becomes a single `-`.
- ModelAdmin.SanitizeSpec: its "keeps the name's length" holds for the model's scalar-value length, not for JavaScript's UTF-16 length when the name holds a character outside the Basic Multilingual Plane.
- ModelAdmin.CardIdSameIff: it is stated over scalar values. With UTF-16 code units, a name with a character outside the Basic Multilingual Plane has a longer card id than the model gives it.
- ModelAdmin.BothUrlListeners: only the stored URL and the text box are modelled. With a valid input the pair calls `fetchModels` twice and `updateModelsModal` once. With an invalid input the first listener alerts and puts the current URL back in the box. The second then accepts that URL again and refreshes the models. These refreshes are network flows and are not modelled.
- `escapeHTML`'s table maps each of `& < > ' "` to itself. It is modelled literally and proved to be the identity. Contracts keep `EscapeHtml(name)` so that they hold for any table.

## Findings

| source | as written | input that shows it | evidently intended | confidence | as-written member | corrected member |
|---|---|---|---|---|---|---|
| js/script.js:288 | the think widget's HTML is passed to `replace` as a replacement string, so `$$`, `$&`, `` $` `` and `$'` in it (for example display math `$$x$$` rendered from a think block) are expanded instead of inserted | a think block whose content renders to `$$x$$` | the widget is inserted verbatim, as a replacement callback would do | not executed | ThinkTags.DollarWidgetCollapses | ThinkTags.RestorePlacesWidget |
| js/localization.js:123 | the validation tests the truthiness of a lookup on the plain `supportedLanguages` object, so names every object inherits (`toString`, `constructor`, …) are truthy and pass | a stored preference of `toString` | only the nine supported codes pass, and anything else becomes `en` | not executed | Localization.InheritedNamePasses | Localization.Resolve |

=== FILE: Attachments.dfy ===
/**
  What happens to a file before it joins the attachment list (`addFilesToList`,
  `extractTextFromPdf`, `extractDataFromSpreadsheet`, js/script.js:511-662):
  how it is read, how its content is converted, and the two converters.

  pdf.js and SheetJS are not modelled. Their output is the input here: a PDF
  is its pages, each a list of text items; a workbook is its sheets, each a
  name and rows of cells as `sheet_to_json(..., { header: 1 })` returns them.
*/
module Attachments {
  import opened Strings

  const PDF_TYPE := "application/pdf"
  const XLSX_TYPE := "application/vnd.openxmlformats-officedocument.spreadsheetml.sheet"
  const XLS_TYPE := "application/vnd.ms-excel"
  const CSV_TYPE := "text/csv"

  /** A spreadsheet by MIME type or by file-name extension. */
  predicate IsSpreadsheet(mimeType: string, name: string) {
    || mimeType == XLSX_TYPE || mimeType == XLS_TYPE || mimeType == CSV_TYPE
    || EndsWith(name, ".xlsx") || EndsWith(name, ".xls") || EndsWith(name, ".csv")
  }

  /** The `FileReader` call made for a file; the last one also raises an alert
      that the type may not be supported. */
  datatype ReadMode = ArrayBuffer | DataUrl | Text | TextWithWarning

  /** The reader choice. A name ending in ".csv" retypes the file as "text/csv"
      first; the later tests look at the original type. */
  function ReadModeOf(mimeType: string, name: string): ReadMode {
    var fileType := if EndsWith(name, ".csv") then CSV_TYPE else mimeType;
    if fileType == PDF_TYPE || IsSpreadsheet(mimeType, name) then ArrayBuffer
    else if StartsWith(mimeType, "image/") then DataUrl
    else if StartsWith(mimeType, "text/") || mimeType == "application/json"
         || mimeType == "application/xml" || mimeType == [] then Text
    else TextWithWarning
  }

  /** Each reader is chosen under exactly one condition on the type and name. */
  lemma ReadModeCases(mimeType: string, name: string)
    ensures ReadModeOf(mimeType, name) == ArrayBuffer
            <==> mimeType == PDF_TYPE || IsSpreadsheet(mimeType, name)
    ensures ReadModeOf(mimeType, name) == DataUrl
            <==> !(mimeType == PDF_TYPE || IsSpreadsheet(mimeType, name)) && StartsWith(mimeType, "image/")
    ensures ReadModeOf(mimeType, name) == Text
            <==> && !(mimeType == PDF_TYPE || IsSpreadsheet(mimeType, name))
                 && !StartsWith(mimeType, "image/")
                 && (StartsWith(mimeType, "text/") || mimeType == "application/json"
                     || mimeType == "application/xml" || mimeType == [])
    ensures ReadModeOf(mimeType, name) == TextWithWarning
            <==> && !(mimeType == PDF_TYPE || IsSpreadsheet(mimeType, name))
                 && !StartsWith(mimeType, "image/")
                 && !(StartsWith(mimeType, "text/") || mimeType == "application/json"
                      || mimeType == "application/xml" || mimeType == [])
  {
    if EndsWith(name, ".csv") {
      assert IsSpreadsheet(mimeType, name);
    }
  }

  /** What the `onload` handler does with what was read. */
  datatype Conversion = PdfExtraction | SpreadsheetExtraction | AsRead

  /** The handler tests the file's own type, not the retyped one. */
  function ConversionOf(mimeType: string, name: string): Conversion {
    if mimeType == PDF_TYPE then PdfExtraction
    else if IsSpreadsheet(mimeType, name) then SpreadsheetExtraction
    else AsRead
  }

  /** A file is read as raw bytes exactly when its content is then converted:
      the bytes of a PDF or a spreadsheet never reach the list unconverted. */
  lemma BinaryReadIffConverted(mimeType: string, name: string)
    ensures ReadModeOf(mimeType, name) == ArrayBuffer <==> ConversionOf(mimeType, name) != AsRead
  {
    ReadModeCases(mimeType, name);
  }

  // ---------------------------------------------------------------- PDF text

  /** What pdf.js delivers: no library, a failure (with its message) while
      loading or reading the document, or the text items of every page. */
  datatype PdfSource = LibraryMissing | Failed(message: string) | Pages(pages: seq<seq<string>>)

  const PDF_LIBRARY_MISSING := "[PDF.js library not loaded. Cannot extract text.]"

  /** A page's items joined by single spaces, then a blank line. */
  function PageText(items: seq<string>): string {
    Join(items, " ") + "\n\n"
  }

  /** The text `extractTextFromPdf` resolves to. */
  function PdfText(src: PdfSource): string {
    match src
    case LibraryMissing => PDF_LIBRARY_MISSING
    case Failed(message) => "[Error extracting text from PDF: " + EscapeHtml(message) + "]"
    case Pages(pages) => Trim(ConcatMap(pages, PageText))
  }

  /** `extractTextFromPdf`: one page after the other, `fullText +=` each
      page's text, and the whole trimmed at the end. */
  method ExtractTextFromPdf(src: PdfSource) returns (text: string)
    ensures text == PdfText(src)
  {
    match src
    case LibraryMissing =>
      return PDF_LIBRARY_MISSING;
    case Failed(message) =>
      return "[Error extracting text from PDF: " + EscapeHtml(message) + "]";
    case Pages(pages) =>
      var fullText := "";
      for i := 1 to |pages| + 1
        invariant fullText == ConcatMap(pages[..i - 1], PageText)
      {
        var pageText := Join(pages[i - 1], " ");
        assert pages[..i][..i - 1] == pages[..i - 1];
        fullText := fullText + pageText + "\n\n";
      }
      assert pages[..|pages|] == pages;
      return Trim(fullText);
  }

  /** The blank line after the last page is trimmed away: a one-page PDF gives
      its items joined by spaces, trimmed. */
  lemma OnePagePdf(items: seq<string>)
    ensures PdfText(Pages([items])) == Trim(Join(items, " "))
  {
    ConcatMapOne(items, PageText);
    assert AllWhitespace("\n\n");
    TrimIgnoresTrailingSpace(Join(items, " "), "\n\n");
  }

  /** Appending a page appends its text before the trim. */
  lemma PdfPagesAppend(pages: seq<seq<string>>, items: seq<string>)
    ensures ConcatMap(pages + [items], PageText) == ConcatMap(pages, PageText) + Join(items, " ") + "\n\n"
  {
    ConcatMapAppend(pages, [items], PageText);
    ConcatMapOne(items, PageText);
  }

  /** A document whose pages hold only white space gives the empty string, and
      no other document does. */
  lemma PdfTextEmptyIff(pages: seq<seq<string>>)
    ensures PdfText(Pages(pages)) == [] <==> AllWhitespace(ConcatMap(pages, PageText))
  {
    TrimEmptyIff(ConcatMap(pages, PageText));
  }

  // ------------------------------------------------------- spreadsheet text

  /** A cell value as `sheet_to_json` with `header: 1` gives it: a string, a
      number (modelled as an integer), a boolean, `null`, or a hole of a sparse
      row where the sheet has no cell (no `defval` is given). */
  datatype Cell = Str(s: string) | Num(n: int) | Bool(b: bool) | Blank | Missing

  datatype Sheet = Sheet(name: string, rows: seq<seq<Cell>>)

  /** A cell as `join` shows it: `String(value)`, with `null` and a hole both
      shown as the empty string. */
  function CellString(c: Cell): string {
    match c
    case Str(s) => s
    case Num(n) => IntToString(n)
    case Bool(b) => if b then "true" else "false"
    case Blank => ""
    case Missing => ""
  }

  /** JavaScript truthiness of a cell value. */
  predicate Truthy(c: Cell) {
    match c
    case Str(s) => s != []
    case Num(n) => n != 0
    case Bool(b) => b
    case Blank => false
    case Missing => false
  }

  /** `replace(/\|/g, '\\|')`: a backslash before every '|'. */
  function EscapePipes(s: string): (r: string)
    decreases |s|
  {
    if s == [] then []
    else (if s[0] == '|' then "\\|" else [s[0]]) + EscapePipes(s[1..])
  }

  /** Every '|' of the escaped text has a backslash just before it, and the
      escaped text is empty exactly when the original is. */
  lemma {:induction false} EscapePipesSpec(s: string)
    ensures forall i :: 0 <= i < |EscapePipes(s)| && EscapePipes(s)[i] == '|' ==> 0 < i && EscapePipes(s)[i - 1] == '\\'
    ensures EscapePipes(s) == [] <==> s == []
    decreases |s|
  {
    if s != [] {
      EscapePipesSpec(s[1..]);
      var head := if s[0] == '|' then "\\|" else [s[0]];
      var r := EscapePipes(s);
      assert r == head + EscapePipes(s[1..]);
      forall i | 0 <= i < |r| && r[i] == '|' ensures 0 < i && r[i - 1] == '\\' {
        if i >= |head| {
          assert r[i] == EscapePipes(s[1..])[i - |head|];
          if i - |head| > 0 {
            assert r[i - 1] == EscapePipes(s[1..])[i - |head| - 1];
          }
        }
      }
    }
  }

  /** A header cell: joined as it is, unescaped. */
  function HeaderCell(c: Cell): string {
    CellString(c)
  }

  /** A data cell: `String(cell || '')` with its pipes escaped. */
  function DataCell(c: Cell): string {
    EscapePipes(if Truthy(c) then CellString(c) else "")
  }

  /** A data cell renders as nothing exactly when its value is falsy: an empty
      string, `false`, a missing value, and also the number 0. */
  lemma DataCellEmptyIff(c: Cell)
    ensures DataCell(c) == [] <==> !Truthy(c)
  {
    EscapePipesSpec(if Truthy(c) then CellString(c) else "");
  }

  /** The row after `while (row.length < width) row.push('')`. */
  function Padded(row: seq<Cell>, width: nat): (r: seq<Cell>)
    ensures |r| == if |row| < width then width else |row|
    ensures r[..|row|] == row
    ensures forall i :: |row| <= i < |r| ==> r[i] == Str("")
  {
    if |row| < width then row + seq(width - |row|, _ => Str("")) else row
  }

  /** `'| ' + cells.join(' | ') + ' |\n'`. */
  function TableLine(cells: seq<string>): string {
    "| " + Join(cells, " | ") + " |\n"
  }

  function HeaderLine(headers: seq<Cell>): string {
    TableLine(seq(|headers|, i requires 0 <= i < |headers| => HeaderCell(headers[i])))
  }

  /** `headers.map(() => '---')` on one header cell: `map` skips the holes of
      a sparse row and `join` shows a hole as the empty string. */
  function SeparatorCell(c: Cell): string {
    if c.Missing? then "" else "---"
  }

  function SeparatorLine(headers: seq<Cell>): string {
    TableLine(seq(|headers|, i requires 0 <= i < |headers| => SeparatorCell(headers[i])))
  }

  function DataLine(row: seq<Cell>, width: nat): string {
    var padded := Padded(row, width);
    TableLine(seq(|padded|, i requires 0 <= i < |padded| => DataCell(padded[i])))
  }

  /** The data lines for rows 1 .. k-1. */
  function DataLines(rows: seq<seq<Cell>>, width: nat, k: nat): string
    requires k <= |rows|
  {
    if k <= 1 then [] else DataLines(rows, width, k - 1) + DataLine(rows[k - 1], width)
  }

  const EMPTY_SHEET := "*Empty sheet*\n"
  const SHEET_SPACER := "\n---\n\n"

  /** Whether a sheet becomes a table: a first row with at least one cell. */
  predicate HasTable(rows: seq<seq<Cell>>) {
    |rows| > 0 && |rows[0]| > 0
  }

  /** A sheet's markdown: header line, separator and data lines, or the
      empty-sheet marker. */
  function SheetBody(rows: seq<seq<Cell>>): string {
    if HasTable(rows) then
      HeaderLine(rows[0]) + SeparatorLine(rows[0]) + DataLines(rows, |rows[0]|, |rows|)
    else EMPTY_SHEET
  }

  /** The sheet heading, shown only when the workbook has several sheets. */
  function Heading(book: seq<Sheet>, i: nat): string
    requires i < |book|
  {
    if |book| > 1 then "\nSheet: " + book[i].name + "\n" else []
  }

  /** The spacer after every sheet but the last. */
  function Spacer(book: seq<Sheet>, i: nat): string {
    if i < |book| - 1 then SHEET_SPACER else []
  }

  /** The text built for sheets 0 .. n-1. */
  function Sections(book: seq<Sheet>, n: nat): string
    requires n <= |book|
  {
    if n == 0 then []
    else Sections(book, n - 1) + Heading(book, n - 1) + SheetBody(book[n - 1].rows) + Spacer(book, n - 1)
  }

  /** What `extractDataFromSpreadsheet` resolves to. */
  function WorkbookMarkdown(book: seq<Sheet>): string {
    Trim(Sections(book, |book|))
  }

  /** The padding loop of one data row. */
  method PadRow(row: seq<Cell>, width: nat) returns (padded: seq<Cell>)
    ensures padded == Padded(row, width)
  {
    padded := row;
    while |padded| < width
      invariant |row| <= |padded| && (|row| < width ==> |padded| <= width)
      invariant |row| >= width ==> |padded| == |row|
      invariant padded == row + seq(|padded| - |row|, _ => Str(""))
      decreases width - |padded|
    {
      padded := padded + [Str("")];
    }
    if |row| >= width {
      assert padded == row + [];
    }
  }

  /** One data row, padded to the header's width, as a table line. */
  method RenderDataLine(row: seq<Cell>, width: nat) returns (line: string)
    ensures line == DataLine(row, width)
  {
    var padded := PadRow(row, width);
    var cells := seq(|padded|, j requires 0 <= j < |padded| => DataCell(padded[j]));
    line := TableLine(cells);
  }

  /** The loop over the data rows 1 .. |rows|-1, appending to `start`. */
  method AppendDataLines(start: string, rows: seq<seq<Cell>>, width: nat) returns (out: string)
    requires |rows| > 0
    ensures out == start + DataLines(rows, width, |rows|)
  {
    out := start;
    for k := 1 to |rows|
      invariant out == start + DataLines(rows, width, k)
    {
      var line := RenderDataLine(rows[k], width);
      Assoc2(start, DataLines(rows, width, k), line);
      out := out + line;
    }
  }

  /** The header, separator and data lines of a sheet, or its empty marker,
      appended to `result`. */
  method AppendSheetBody(result: string, rows: seq<seq<Cell>>) returns (out: string)
    ensures out == result + SheetBody(rows)
  {
    if |rows| > 0 && |rows[0]| > 0 {
      var headers := rows[0];
      out := result + HeaderLine(headers) + SeparatorLine(headers);
      out := AppendDataLines(out, rows, |headers|);
      Assoc(result, HeaderLine(headers), SeparatorLine(headers), DataLines(rows, |headers|, |rows|));
    } else {
      out := result + EMPTY_SHEET;
    }
  }

  /** The forEach callback for one sheet, appending to `result`. */
  method AppendSheet(result: string, book: seq<Sheet>, i: nat) returns (out: string)
    requires i < |book|
    ensures out == result + Heading(book, i) + SheetBody(book[i].rows) + Spacer(book, i)
  {
    out := result;
    if |book| > 1 {
      out := out + "\nSheet: " + book[i].name + "\n";
      Assoc(result, "\nSheet: ", book[i].name, "\n");
    } else {
      assert out == result + Heading(book, i);
    }
    out := AppendSheetBody(out, book[i].rows);
    if i < |book| - 1 {
      out := out + SHEET_SPACER;
    } else {
      assert out + Spacer(book, i) == out;
    }
  }

  /** `extractDataFromSpreadsheet` on a workbook SheetJS has parsed. */
  method ExtractDataFromSpreadsheet(book: seq<Sheet>) returns (md: string)
    ensures md == WorkbookMarkdown(book)
  {
    var result := "";
    for i := 0 to |book|
      invariant result == Sections(book, i)
    {
      result := AppendSheet(result, book, i);
    }
    return Trim(result);
  }

  /** A workbook of one sheet has no heading and no spacer: its markdown is
      the sheet's own, trimmed. */
  lemma OneSheet(sheet: Sheet)
    ensures WorkbookMarkdown([sheet]) == Trim(SheetBody(sheet.rows))
  {
    assert Sections([sheet], 1) == [] + [] + SheetBody(sheet.rows) + [];
    assert [] + [] + SheetBody(sheet.rows) + [] == SheetBody(sheet.rows);
  }

  /** A two-cell table line. */
  lemma TwoCellLine(a: string, b: string)
    ensures TableLine([a, b]) == "| " + a + " | " + b + " |\n"
  {
    assert [a, b][1..] == [b];
    assert Join([a, b], " | ") == a + " | " + b;
    Assoc2("| ", a + " | ", b);
    Assoc2("| ", a, " | ");
  }

  /** The header line and separator of a two-cell header row. */
  lemma HeaderTwo(h0: Cell, h1: Cell)
    ensures HeaderLine([h0, h1]) == TableLine([HeaderCell(h0), HeaderCell(h1)])
    ensures SeparatorLine([h0, h1]) == TableLine([SeparatorCell(h0), SeparatorCell(h1)])
  {
    var header := [h0, h1];
    assert seq(|header|, i requires 0 <= i < |header| => HeaderCell(header[i])) == [HeaderCell(h0), HeaderCell(h1)];
    assert seq(|header|, i requires 0 <= i < |header| => SeparatorCell(header[i])) == [SeparatorCell(h0), SeparatorCell(h1)];
  }

  /** The data line of a two-cell row under a two-cell header. */
  lemma DataTwo(d0: Cell, d1: Cell)
    ensures DataLine([d0, d1], 2) == TableLine([DataCell(d0), DataCell(d1)])
  {
    var data := [d0, d1];
    assert Padded(data, 2) == data;
    assert seq(|data|, i requires 0 <= i < |data| => DataCell(data[i])) == [DataCell(d0), DataCell(d1)];
  }

  /** A sheet of a two-cell header and one two-cell data row: the header
      line, the separator and the data line. */
  lemma TwoByTwoBody(h0: Cell, h1: Cell, d0: Cell, d1: Cell)
    ensures SheetBody([[h0, h1], [d0, d1]])
         == TableLine([HeaderCell(h0), HeaderCell(h1)]) + TableLine([SeparatorCell(h0), SeparatorCell(h1)])
            + TableLine([DataCell(d0), DataCell(d1)])
  {
    var rows := [[h0, h1], [d0, d1]];
    HeaderTwo(h0, h1);
    DataTwo(d0, d1);
    assert DataLines(rows, 2, 2) == [] + DataLine(rows[1], 2);
  }

  /** The three lines of the worked example below. */
  lemma ExampleLines()
    ensures TableLine([HeaderCell(Str("A")), HeaderCell(Str("B"))]) == "| A | B |\n"
    ensures TableLine([SeparatorCell(Str("A")), SeparatorCell(Str("B"))]) == "| --- | --- |\n"
    ensures TableLine([DataCell(Str("1")), DataCell(Str("2"))]) == "| 1 | 2 |\n"
  {
    assert EscapePipes("1") == "1" && EscapePipes("2") == "2";
    TwoCellLine("A", "B");
    TwoCellLine("---", "---");
    TwoCellLine("1", "2");
  }

  const EXAMPLE_TABLE := "| A | B |\n| --- | --- |\n| 1 | 2 |"

  /** The example's three lines glue into its table and a final line break. */
  lemma ExampleTableGlue()
    ensures "| A | B |\n" + "| --- | --- |\n" + "| 1 | 2 |\n" == EXAMPLE_TABLE + "\n"
  {
  }

  /** The trim removes the example's final line break and nothing else. */
  lemma ExampleTableTrim()
    ensures Trim(EXAMPLE_TABLE + "\n") == EXAMPLE_TABLE
  {
    var t := EXAMPLE_TABLE;
    assert AllWhitespace("\n");
    TrimIgnoresTrailingSpace(t, "\n");
    assert t[0] == '|' && t[|t| - 1] == '|';
    TrimOfTrimmed(t);
  }

  /** A worked example: a one-sheet workbook with header `A`, `B` and one data
      row `1`, `2` becomes a three-line markdown table. */
  lemma SheetExample()
    ensures WorkbookMarkdown([Sheet("Sheet1", [[Str("A"), Str("B")], [Str("1"), Str("2")]])])
         == "| A | B |\n| --- | --- |\n| 1 | 2 |"
  {
    var rows := [[Str("A"), Str("B")], [Str("1"), Str("2")]];
    TwoByTwoBody(Str("A"), Str("B"), Str("1"), Str("2"));
    ExampleLines();
    ExampleTableGlue();
    ExampleTableTrim();
    OneSheet(Sheet("Sheet1", rows));
  }

  /** Without holes in the header row, the separator has one `---` per
      header cell. */
  lemma SeparatorWithoutHoles(headers: seq<Cell>)
    requires forall i :: 0 <= i < |headers| ==> !headers[i].Missing?
    ensures SeparatorLine(headers) == TableLine(seq(|headers|, _ => "---"))
  {
    assert seq(|headers|, i requires 0 <= i < |headers| => SeparatorCell(headers[i]))
        == seq(|headers|, _ => "---");
  }

  /** A three-cell table line. */
  lemma ThreeCellLine(a: string, b: string, c: string)
    ensures TableLine([a, b, c]) == "| " + a + " | " + b + " | " + c + " |\n"
  {
    assert [a, b, c][1..] == [b, c];
    assert [b, c][1..] == [c];
    assert Join([b, c], " | ") == b + " | " + c;
    assert Join([a, b, c], " | ") == a + " | " + Join([b, c], " | ");
    Assoc2("| ", a + " | ", b + " | " + c);
    Assoc2("| ", a, " | ");
    Assoc("| " + a + " | ", b, " | ", c);
  }

  /** The header line and separator of a three-cell header row. */
  lemma HeaderThree(h0: Cell, h1: Cell, h2: Cell)
    ensures HeaderLine([h0, h1, h2]) == TableLine([HeaderCell(h0), HeaderCell(h1), HeaderCell(h2)])
    ensures SeparatorLine([h0, h1, h2]) == TableLine([SeparatorCell(h0), SeparatorCell(h1), SeparatorCell(h2)])
  {
    var header := [h0, h1, h2];
    assert seq(|header|, i requires 0 <= i < |header| => HeaderCell(header[i]))
        == [HeaderCell(h0), HeaderCell(h1), HeaderCell(h2)];
    assert seq(|header|, i requires 0 <= i < |header| => SeparatorCell(header[i]))
        == [SeparatorCell(h0), SeparatorCell(h1), SeparatorCell(h2)];
  }

  /** The two lines of the sparse-header example below. */
  lemma SparseHeaderLines()
    ensures HeaderLine([Missing, Str("Q1"), Str("Q2")]) == "|  | Q1 | Q2 |\n"
    ensures SeparatorLine([Missing, Str("Q1"), Str("Q2")]) == "|  | --- | --- |\n"
  {
    HeaderThree(Missing, Str("Q1"), Str("Q2"));
    ThreeCellLine("", "Q1", "Q2");
    ThreeCellLine("", "---", "---");
  }

  /** A worked example of a sparse header row: a crosstab whose top-left cell
      is missing keeps an empty column under it in the separator as well. */
  lemma SparseHeaderExample()
    ensures SheetBody([[Missing, Str("Q1"), Str("Q2")]]) == "|  | Q1 | Q2 |\n|  | --- | --- |\n"
  {
    var rows := [[Missing, Str("Q1"), Str("Q2")]];
    SparseHeaderLines();
    assert DataLines(rows, 3, 1) == [];
    assert "|  | Q1 | Q2 |\n" + "|  | --- | --- |\n" + [] == "|  | Q1 | Q2 |\n|  | --- | --- |\n";
  }

  /** A sheet without a first row, or with an empty first row, is marked
      empty; any other sheet starts with its header line. */
  lemma SheetBodyCases(rows: seq<seq<Cell>>)
    ensures !HasTable(rows) ==> SheetBody(rows) == EMPTY_SHEET
    ensures HasTable(rows) ==> StartsWith(SheetBody(rows), HeaderLine(rows[0]))
  {
    if HasTable(rows) {
      var h := HeaderLine(rows[0]);
      var b := SheetBody(rows);
      assert forall k :: 0 <= k < |h| ==> b[k] == h[k];
    }
  }
}

=== FILE: ChatClient.dfy ===
/**
  The client's mutable state and the operations that change it: sending a
  message and reading the streamed reply (`sendMessage`, js/script.js:330-459,
  with `updateStreamingMessage` and `finalizeAiMessage`), and keeping the
  attachment list (`addFilesToList`, `removeSpecificFile`,
  `clearAllAttachedFiles`, js/script.js:591-677).

  `sendMessage` is cut at its first `await`: `BeginSend` is what runs before
  the request leaves, `CompleteSend` everything after, given what the network
  delivered. `addFilesToList` is cut the same way: its loop runs at once and
  leaves one pending read per accepted file; each read's `onload` is
  `CompleteFileRead`, which may run in any order.
*/
module ChatApp {
  import opened Strings
  import opened ThinkTags
  import opened StreamAssembly
  import opened Attachments
  import opened Payload

  /** What the network delivers for one request: `fetch` rejects; the
      response is not ok; or the body is read chunk by chunk, until it ends or
      a read fails with a message. */
  datatype Transport =
    | NetworkError(message: string)
    | NotOk(status: nat, statusText: string, body: string)
    | Streamed(chunks: seq<string>, failure: Option<string>)

  /** The request body sent to `/api/chat` (always with `stream: true`). */
  datatype Request = Request(model: string, messages: seq<ChatMessage>)

  /** The message of the error the `catch` block receives, if any. */
  function FailureOf(t: Transport): Option<string> {
    match t
    case NetworkError(message) => Some(message)
    case NotOk(status, statusText, body) =>
      Some("API error: " + IntToString(status) + " " + statusText + ". " + body)
    case Streamed(_, failure) => failure
  }

  /** `**Error:** ${error.message || "An unknown error occurred."}`. */
  function ErrorText(message: string): string {
    "**Error:** " + (if message == [] then "An unknown error occurred." else message)
  }

  /** The history after a send: the user turn once the response is ok, the
      assistant turn only when the whole body was read. */
  function HistoryAfter(history: seq<ChatMessage>, files: seq<AttachedFile>, messageText: string,
                        t: Transport, parse: string -> ParsedLine): seq<ChatMessage>
  {
    match t
    case Streamed(chunks, failure) =>
      history + [ChatMessage(User, HistoryUserContent(files, messageText), None)]
      + (if failure.None? then [ChatMessage(Assistant, StreamText(chunks, parse), None)] else [])
    case _ => history
  }

  /** The raw markdown of the reply bubble when the send is over: the reply
      streamed after what it held, or the error text that replaced it. */
  function FinalRaw(raw: string, t: Transport, parse: string -> ParsedLine): string {
    match FailureOf(t)
    case Some(message) => ErrorText(message)
    case None => raw + StreamText(t.chunks, parse)
  }

  /** A send never touches the earlier history and adds no system turn: a
      response that is not ok adds nothing, a failed read adds the user turn
      alone, and a complete read adds the user turn and then the reply. */
  lemma HistoryAfterCases(history: seq<ChatMessage>, files: seq<AttachedFile>, messageText: string,
                          t: Transport, parse: string -> ParsedLine)
    requires NoSystemTurns(history)
    ensures var h := HistoryAfter(history, files, messageText, t, parse);
            && NoSystemTurns(h)
            && h[..|history|] == history
            && (!t.Streamed? ==> h == history)
            && (t.Streamed? && t.failure.Some? ==> |h| == |history| + 1 && h[|history|].role == User)
            && (t.Streamed? && t.failure.None? ==>
                  |h| == |history| + 2 && h[|history|].role == User
                  && h[|history| + 1] == ChatMessage(Assistant, StreamText(t.chunks, parse), None))
  {
    var h := HistoryAfter(history, files, messageText, t, parse);
    assert h[..|history|] == history;
    forall i | 0 <= i < |h| ensures h[i].role != System {
      if i < |history| {
        assert h[i] == history[i];
      }
    }
  }

  /** A file the user picked: its name and its MIME type (possibly empty). */
  datatype PickedFile = PickedFile(name: string, mimeType: string)

  /** A read started by `addFilesToList`, with the id given to it and the
      choices made for it. */
  datatype PendingRead = PendingRead(id: string, file: PickedFile, mode: ReadMode, conversion: Conversion)

  /** `attachedFiles.some(f => f.name === name)`. */
  predicate Attached(list: seq<AttachedFile>, name: string) {
    exists i :: 0 <= i < |list| && list[i].name == name
  }

  /** The reads the loop starts: one per picked file whose name is not in the
      list as it stood when the batch began. */
  function PendingReads(list: seq<AttachedFile>, files: seq<PickedFile>, ids: seq<string>): seq<PendingRead>
    requires |ids| == |files|
    decreases |files|
  {
    if files == [] then []
    else
      var n := |files| - 1;
      var f := files[n];
      PendingReads(list, files[..n], ids[..n])
      + (if Attached(list, f.name) then []
         else [PendingRead(ids[n], f, ReadModeOf(f.mimeType, f.name), ConversionOf(f.mimeType, f.name))])
  }

  /** The files skipped with an "already attached" alert. */
  function Rejected(list: seq<AttachedFile>, files: seq<PickedFile>): seq<PickedFile> {
    Filter(files, (f: PickedFile) => Attached(list, f.name))
  }

  /** Every pending read is for a name not yet attached, read and converted
      as its type and name demand. */
  lemma {:induction false} PendingReadsSound(list: seq<AttachedFile>, files: seq<PickedFile>, ids: seq<string>)
    requires |ids| == |files|
    ensures var r := PendingReads(list, files, ids);
            && |r| <= |files|
            && (forall k :: 0 <= k < |r| ==>
                  && !Attached(list, r[k].file.name)
                  && r[k].mode == ReadModeOf(r[k].file.mimeType, r[k].file.name)
                  && r[k].conversion == ConversionOf(r[k].file.mimeType, r[k].file.name))
    decreases |files|
  {
    if files != [] {
      var n := |files| - 1;
      PendingReadsSound(list, files[..n], ids[..n]);
      var r0 := PendingReads(list, files[..n], ids[..n]);
      var r := PendingReads(list, files, ids);
      forall k | 0 <= k < |r0| ensures r[k] == r0[k] { }
    }
  }

  /** Some pending read is for `file`, under `id`. */
  predicate HasRead(started: seq<PendingRead>, id: string, file: PickedFile) {
    exists k :: 0 <= k < |started| && started[k].id == id && started[k].file == file
  }

  /** Every picked file whose name is not attached gets a read under its own
      id. */
  lemma {:induction false} PendingReadsComplete(list: seq<AttachedFile>, files: seq<PickedFile>, ids: seq<string>)
    requires |ids| == |files|
    ensures forall i :: 0 <= i < |files| && !Attached(list, files[i].name) ==>
              HasRead(PendingReads(list, files, ids), ids[i], files[i])
    decreases |files|
  {
    if files != [] {
      var n := |files| - 1;
      PendingReadsComplete(list, files[..n], ids[..n]);
      var r0 := PendingReads(list, files[..n], ids[..n]);
      var r := PendingReads(list, files, ids);
      var f := files[n];
      var read := PendingRead(ids[n], f, ReadModeOf(f.mimeType, f.name), ConversionOf(f.mimeType, f.name));
      assert r == r0 + (if Attached(list, f.name) then [] else [read]);
      assert r[..|r0|] == r0;
      forall i | 0 <= i < |files| && !Attached(list, files[i].name)
        ensures HasRead(r, ids[i], files[i])
      {
        if i < n {
          assert files[..n][i] == files[i] && ids[..n][i] == ids[i];
          var k :| 0 <= k < |r0| && r0[k].id == ids[i] && r0[k].file == files[i];
          assert r[k] == r0[k];
        } else {
          assert r[|r0|] == read;
        }
      }
    }
  }

  /** The duplicate check looks only at the list as it was when the batch
      began: two picked files with the same new name are both read. */
  lemma SameNameInOneBatch(list: seq<AttachedFile>, f: PickedFile, g: PickedFile, idF: string, idG: string)
    requires f.name == g.name && !Attached(list, f.name)
    ensures |PendingReads(list, [f, g], [idF, idG])| == 2
  {
    assert [f, g][..1] == [f] && [idF, idG][..1] == [idF];
    assert [f][..0] == [] && [idF][..0] == [];
    assert !Attached(list, g.name);
    assert |PendingReads(list, [f], [idF])| == 1;
  }

  /** What the libraries and the `FileReader` yield for a pending read: the
      read fails, or it succeeds with the raw result, what pdf.js makes of it,
      and what SheetJS makes of the file (`None` when that fails). Only the part
      the read's conversion asks for is looked at. */
  datatype ReadOutcome = ReadFailed | Read(raw: string, pdf: PdfSource, workbook: Option<seq<Sheet>>)

  /** The entry `onload` pushes, if any. */
  function FileEntry(p: PendingRead, outcome: ReadOutcome): (r: Option<AttachedFile>)
    ensures r.None? <==> outcome.ReadFailed?
                          || (p.conversion == SpreadsheetExtraction && outcome.workbook.None?)
    ensures r.Some? ==> r.value.id == p.id && r.value.name == p.file.name && r.value.mimeType == p.file.mimeType
  {
    match outcome
    case ReadFailed => None
    case Read(raw, pdf, workbook) =>
      match p.conversion
      case PdfExtraction => Some(AttachedFile(p.id, p.file.name, PdfText(pdf), p.file.mimeType))
      case SpreadsheetExtraction =>
        if workbook.None? then None
        else Some(AttachedFile(p.id, p.file.name, WorkbookMarkdown(workbook.value), p.file.mimeType))
      case AsRead => Some(AttachedFile(p.id, p.file.name, raw, p.file.mimeType))
  }

  /** `attachedFiles.filter(f => f.id !== fileId)`. */
  function WithoutId(list: seq<AttachedFile>, id: string): seq<AttachedFile> {
    Filter(list, (f: AttachedFile) => f.id != id)
  }

  /** Exactly the entries with that id are dropped. */
  lemma WithoutIdMember(list: seq<AttachedFile>, id: string, f: AttachedFile)
    ensures f in WithoutId(list, id) <==> f in list && f.id != id
  {
    FilterMember(list, (f: AttachedFile) => f.id != id, f);
  }

  /** The entries that stay keep their order. */
  lemma WithoutIdAppend(a: seq<AttachedFile>, b: seq<AttachedFile>, id: string)
    ensures WithoutId(a + b, id) == WithoutId(a, id) + WithoutId(b, id)
  {
    FilterAppend(a, b, (f: AttachedFile) => f.id != id);
  }

  /** Removing the same id twice removes nothing more. */
  lemma WithoutIdIdempotent(list: seq<AttachedFile>, id: string)
    ensures WithoutId(WithoutId(list, id), id) == WithoutId(list, id)
  {
    FilterKeepsAll(WithoutId(list, id), (f: AttachedFile) => f.id != id);
  }

  /** The globals of js/script.js that the chat keeps between events. */
  class ChatClient {
    var history: seq<ChatMessage>
    var attachedFiles: seq<AttachedFile>
    var isAwaitingResponse: bool
    /** `dataset.rawMarkdown` of `currentAiMessageContentDiv`; `None` while
        there is no reply bubble. */
    var currentRaw: Option<string>
    /** The trimmed text of the send in progress: the local `messageText` of
        `sendMessage`, kept across its `await`. */
    ghost var pendingText: string

    ghost predicate Valid()
      reads this
    {
      NoSystemTurns(history)
    }

    constructor ()
      ensures Valid()
      ensures history == [] && attachedFiles == [] && !isAwaitingResponse && currentRaw == None
    {
      history := [];
      attachedFiles := [];
      isAwaitingResponse := false;
      currentRaw := None;
      pendingText := [];
    }

    /** The early return of `sendMessage`. */
    predicate SendBlocked(messageText: string, model: string)
      reads this
    {
      (messageText == [] && attachedFiles == []) || model == [] || isAwaitingResponse
    }

    /** `sendMessage` up to the `fetch`: the gate, then the busy flag, an
        empty reply bubble, and the request. */
    method BeginSend(input: string, model: string, systemPrompt: string) returns (request: Option<Request>)
      requires Valid()
      modifies this
      ensures Valid()
      ensures old(SendBlocked(Trim(input), model)) ==> request == None && unchanged(this)
      ensures !old(SendBlocked(Trim(input), model)) ==>
                && request == Some(Request(model, PayloadMessages(systemPrompt, history,
                                                                  UserMessage(attachedFiles, Trim(input)))))
                && isAwaitingResponse && currentRaw == Some("") && pendingText == Trim(input)
                && history == old(history) && attachedFiles == old(attachedFiles)
    {
      var messageText := Trim(input);
      if (messageText == [] && |attachedFiles| == 0) || model == [] || isAwaitingResponse {
        return None;
      }
      isAwaitingResponse := true;
      currentRaw := Some("");
      pendingText := messageText;
      var current := BuildUserMessage(attachedFiles, messageText);
      var systemMessages := if Trim(systemPrompt) != [] then [ChatMessage(System, Trim(systemPrompt), None)] else [];
      request := Some(Request(model, systemMessages + history + [current]));
    }

    /** `updateStreamingMessage`: the piece is appended to the raw markdown of
        the reply bubble, whose think blocks are then extracted for display. */
    method UpdateStreamingMessage(chunk: string) returns (shown: Option<Extraction>)
      modifies this
      ensures currentRaw == (if old(currentRaw).Some? then Some(old(currentRaw).value + chunk) else None)
      ensures shown == (if currentRaw.Some? then Some(ProcessThinkTagsInMarkdown(currentRaw.value)) else None)
      ensures history == old(history) && attachedFiles == old(attachedFiles)
      ensures isAwaitingResponse == old(isAwaitingResponse)
    {
      shown := None;
      if currentRaw.Some? {
        currentRaw := Some(currentRaw.value + chunk);
        shown := Some(ProcessThinkTagsInMarkdown(currentRaw.value));
      }
    }

    /** One parsed line: a non-empty `message.content` is wrapped in think tags
        when it contains a reasoning lead-in, then shown; anything else adds
        nothing. */
    method HandleLine(parsed: ParsedLine) returns (text: string)
      requires currentRaw.Some?
      modifies this
      ensures text == LineText(parsed)
      ensures currentRaw == Some(old(currentRaw).value + text)
      ensures history == old(history) && attachedFiles == old(attachedFiles)
      ensures isAwaitingResponse == old(isAwaitingResponse)
    {
      text := [];
      if parsed.Event? && parsed.content.Some? && parsed.content.value != [] {
        var contentPiece := parsed.content.value;
        text := if HasLeadIn(contentPiece) then "<think>" + contentPiece + "</think>" else contentPiece;
        var _ := UpdateStreamingMessage(text);
      } else {
        assert currentRaw.value + text == currentRaw.value;
      }
    }

    /** The read loop: every decoded chunk handled in arrival order. */
    method ReadStream(chunks: seq<string>, parse: string -> ParsedLine) returns (aiResponseContent: string)
      requires currentRaw.Some?
      modifies this
      ensures aiResponseContent == StreamText(chunks, parse)
      ensures currentRaw == Some(old(currentRaw).value + aiResponseContent)
      ensures history == old(history) && attachedFiles == old(attachedFiles)
      ensures isAwaitingResponse == old(isAwaitingResponse)
    {
      ghost var raw := currentRaw.value;
      aiResponseContent := "";
      assert raw + aiResponseContent == raw;
      for i := 0 to |chunks|
        invariant aiResponseContent == StreamText(chunks[..i], parse)
        invariant currentRaw == Some(raw + aiResponseContent)
        invariant history == old(history) && attachedFiles == old(attachedFiles)
        invariant isAwaitingResponse == old(isAwaitingResponse)
      {
        aiResponseContent := ReadChunk(chunks[i], parse, aiResponseContent);
        ConcatMapSnoc(chunks, (chunk: string) => ChunkText(chunk, parse), i);
        Assoc2(raw, StreamText(chunks[..i], parse), ChunkText(chunks[i], parse));
      }
      assert chunks[..|chunks|] == chunks;
    }

    /** One chunk: split into non-blank lines, every line parsed, every
        content piece appended both to the reply so far and, through
        `UpdateStreamingMessage`, to the bubble. */
    method ReadChunk(chunk: string, parse: string -> ParsedLine, soFar: string) returns (aiResponseContent: string)
      requires currentRaw.Some?
      modifies this
      ensures aiResponseContent == soFar + ChunkText(chunk, parse)
      ensures currentRaw == Some(old(currentRaw).value + ChunkText(chunk, parse))
      ensures history == old(history) && attachedFiles == old(attachedFiles)
      ensures isAwaitingResponse == old(isAwaitingResponse)
    {
      ghost var raw := currentRaw.value;
      aiResponseContent := soFar;
      var lines := ChunkLines(chunk);
      assert soFar + LinesText(lines[..0], parse) == soFar && raw + LinesText(lines[..0], parse) == raw;
      for j := 0 to |lines|
        invariant aiResponseContent == soFar + LinesText(lines[..j], parse)
        invariant currentRaw == Some(raw + LinesText(lines[..j], parse))
        invariant history == old(history) && attachedFiles == old(attachedFiles)
        invariant isAwaitingResponse == old(isAwaitingResponse)
      {
        ConcatMapSnoc(lines, (line: string) => LineText(parse(line)), j);
        var parsed := parse(lines[j]);
        ghost var piece, done := LineText(parsed), LinesText(lines[..j], parse);
        assert LinesText(lines[..j + 1], parse) == done + piece;
        Assoc2(soFar, done, piece);
        Assoc2(raw, done, piece);
        var text := HandleLine(parsed);
        aiResponseContent := aiResponseContent + text;
      }
      assert lines[..|lines|] == lines;
    }

    /** `finalizeAiMessage`: a bubble with raw markdown is rendered once more,
        then the bubble is let go. */
    method FinalizeAiMessage() returns (shown: Option<Extraction>)
      modifies this
      ensures shown == if old(currentRaw).Some? && old(currentRaw).value != []
                       then Some(ProcessThinkTagsInMarkdown(old(currentRaw).value)) else None
      ensures currentRaw == None
      ensures history == old(history) && attachedFiles == old(attachedFiles)
      ensures isAwaitingResponse == old(isAwaitingResponse)
    {
      shown := None;
      if currentRaw.Some? && currentRaw.value != [] {
        shown := Some(ProcessThinkTagsInMarkdown(currentRaw.value));
      }
      currentRaw := None;
    }

    /** `clearAllAttachedFiles`. */
    method ClearAllAttachedFiles()
      modifies this
      ensures attachedFiles == []
      ensures history == old(history) && currentRaw == old(currentRaw)
      ensures isAwaitingResponse == old(isAwaitingResponse)
    {
      attachedFiles := [];
    }

    /** The `try` block of `sendMessage` from the `fetch` on: an ok response
        adds the user turn to the history and streams the reply into the
        bubble; a complete read then adds the reply too. Returns the message
        of the error that ends the block, if any. */
    method Exchange(messageText: string, transport: Transport, parse: string -> ParsedLine)
      returns (failure: Option<string>)
      requires currentRaw.Some?
      modifies this
      ensures failure == FailureOf(transport)
      ensures history == HistoryAfter(old(history), old(attachedFiles), messageText, transport, parse)
      ensures currentRaw.Some?
      ensures failure.None? ==> currentRaw == Some(old(currentRaw).value + StreamText(transport.chunks, parse))
      ensures attachedFiles == old(attachedFiles) && isAwaitingResponse == old(isAwaitingResponse)
    {
      match transport {
        case NetworkError(message) =>
          failure := Some(message);
        case NotOk(status, statusText, body) =>
          failure := Some("API error: " + IntToString(status) + " " + statusText + ". " + body);
        case Streamed(chunks, readFailure) =>
          var historyUserContent := HistoryUserContent(attachedFiles, messageText);
          history := history + [ChatMessage(User, historyUserContent, None)];
          var aiResponseContent := ReadStream(chunks, parse);
          if readFailure.None? {
            history := history + [ChatMessage(Assistant, aiResponseContent, None)];
          }
          failure := readFailure;
      }
    }

    /** `sendMessage` from the `fetch` on, for the trimmed text that
        `BeginSend` let through and what the network delivers. The history gets the
        user turn only after an ok response and the reply only after a complete
        read; the bubble ends with the reply or with the error text; and the
        `finally` block always empties the attachments and clears the busy
        flag. Returns what the final render shows. */
    method CompleteSend(messageText: string, transport: Transport, parse: string -> ParsedLine)
      returns (shown: Option<Extraction>)
      requires Valid() && currentRaw.Some?
      requires isAwaitingResponse && messageText == pendingText
      modifies this
      ensures Valid()
      ensures history == HistoryAfter(old(history), old(attachedFiles), messageText, transport, parse)
      ensures var raw := FinalRaw(old(currentRaw).value, transport, parse);
              shown == if raw == [] then None else Some(ProcessThinkTagsInMarkdown(raw))
      ensures attachedFiles == [] && !isAwaitingResponse && currentRaw == None
    {
      HistoryAfterCases(history, attachedFiles, messageText, transport, parse);
      var failure := Exchange(messageText, transport, parse);
      if failure.Some? {
        var errorMessage := ErrorText(failure.value);
        if currentRaw.Some? {
          currentRaw := Some(errorMessage);
        }
      }
      shown := FinalizeAiMessage();
      ClearAllAttachedFiles();
      isAwaitingResponse := false;
    }

    /** The synchronous loop of `addFilesToList`: each picked file whose name
        is already attached is rejected, every other one gets a read under the
        id given for it. Nothing is added until a read completes. */
    method AddFilesToList(files: seq<PickedFile>, ids: seq<string>)
      returns (pending: seq<PendingRead>, rejected: seq<PickedFile>)
      requires |ids| == |files|
      ensures pending == PendingReads(attachedFiles, files, ids)
      ensures rejected == Rejected(attachedFiles, files)
    {
      pending, rejected := [], [];
      for i := 0 to |files|
        invariant pending == PendingReads(attachedFiles, files[..i], ids[..i])
        invariant rejected == Rejected(attachedFiles, files[..i])
      {
        var file := files[i];
        assert files[..i + 1][..i] == files[..i] && ids[..i + 1][..i] == ids[..i];
        if exists k :: 0 <= k < |attachedFiles| && attachedFiles[k].name == file.name {
          rejected := rejected + [file];
        } else {
          var mode := ReadModeOf(file.mimeType, file.name);
          var conversion := ConversionOf(file.mimeType, file.name);
          pending := pending + [PendingRead(ids[i], file, mode, conversion)];
        }
      }
      assert files[..|files|] == files && ids[..|ids|] == ids;
    }

    /** The `onload` (or `onerror`) of one pending read: the content is
        converted as chosen, and the entry is appended at the end; a failed
        read or a failed spreadsheet conversion adds nothing. */
    method CompleteFileRead(p: PendingRead, outcome: ReadOutcome)
      modifies this
      ensures attachedFiles == old(attachedFiles)
                + (var e := FileEntry(p, outcome); if e.Some? then [e.value] else [])
      ensures history == old(history) && currentRaw == old(currentRaw)
      ensures isAwaitingResponse == old(isAwaitingResponse)
    {
      match outcome {
        case ReadFailed =>
        case Read(raw, pdf, workbook) =>
          var fileContent := raw;
          var ok := true;
          match p.conversion {
            case PdfExtraction =>
              fileContent := ExtractTextFromPdf(pdf);
            case SpreadsheetExtraction =>
              if workbook.Some? {
                fileContent := ExtractDataFromSpreadsheet(workbook.value);
              } else {
                ok := false;
              }
            case AsRead =>
          }
          if ok {
            attachedFiles := attachedFiles + [AttachedFile(p.id, p.file.name, fileContent, p.file.mimeType)];
          }
      }
    }

    /** `removeSpecificFile`. */
    method RemoveSpecificFile(fileId: string)
      modifies this
      ensures attachedFiles == WithoutId(old(attachedFiles), fileId)
      ensures history == old(history) && currentRaw == old(currentRaw)
      ensures isAwaitingResponse == old(isAwaitingResponse)
    {
      attachedFiles := WithoutId(attachedFiles, fileId);
    }
  }
}

=== FILE: Localization.dfy ===
/**
  The interface translations of js/localization.js: the lookup `t`, the
  choice of the start-up language, and `loadLanguage`, which installs a
  language's strings, rewrites the marked elements and falls back to English
  once when a language cannot be loaded.

  The fetch of `lang/<code>.json` is a parameter: for each code, the parsed
  table, or `None` when the request or the parse fails. `localStorage` is the
  field `preference`.
*/
module Localization {
  import opened Strings

  /** `supportedLanguages`: code to display name. */
  const SUPPORTED: map<string, string> := map[
    "en" := "English", "es" := "Español", "pl" := "Polski", "fr" := "Français",
    "de" := "Deutsch", "it" := "Italiano", "zh" := "中文", "ja" := "日本語", "tr" := "Türkçe"]

  /** The members every object literal inherits from `Object.prototype`; each
      is a function or an object, so looking one up in `supportedLanguages`
      gives a truthy value. */
  const INHERITED: set<string> := {
    "constructor", "hasOwnProperty", "isPrototypeOf", "propertyIsEnumerable",
    "toLocaleString", "toString", "valueOf", "__proto__",
    "__defineGetter__", "__defineSetter__", "__lookupGetter__", "__lookupSetter__"}

  /** A translation exists and is truthy (a non-empty string). */
  predicate HasTranslation(translations: map<string, string>, key: string) {
    key in translations && translations[key] != []
  }

  /** `t(key)`: `translations[key] || key`. */
  function Translate(translations: map<string, string>, key: string): (r: string)
    ensures HasTranslation(translations, key) ==> r == translations[key]
    ensures !HasTranslation(translations, key) ==> r == key
  {
    if HasTranslation(translations, key) then translations[key] else key
  }

  /** A non-empty key always gives a non-empty text, and an untranslated key
      shows as itself. */
  lemma TranslateNeverBlank(translations: map<string, string>, key: string)
    requires key != []
    ensures Translate(translations, key) != []
    ensures key !in translations ==> Translate(translations, key) == key
  {
  }

  /** The candidate at start-up: the stored preference when it is set and
      non-empty, otherwise the browser language up to its first '-'. */
  function Candidate(preference: Option<string>, navigatorLanguage: string): (r: string)
    ensures preference.Some? && preference.value != [] ==> r == preference.value
    ensures !(preference.Some? && preference.value != []) ==>
              && '-' !in r
              && |r| <= |navigatorLanguage|
              && r == navigatorLanguage[..|r|]
              && (|r| == |navigatorLanguage| || navigatorLanguage[|r|] == '-')
  {
    if preference.Some? && preference.value != [] then preference.value
    else
      SplitSpec(navigatorLanguage, '-');
      SplitFirst(navigatorLanguage, '-');
      Split(navigatorLanguage, '-')[0]
  }

  /** `supportedLanguages[savedLang] ? savedLang : 'en'` as written: the lookup
      also finds the inherited members. */
  function ResolveAsWritten(candidate: string): (r: string)
    ensures r in SUPPORTED || r in INHERITED
    ensures r == candidate || r == "en"
  {
    if candidate in SUPPORTED || candidate in INHERITED then candidate else "en"
  }

  /** The validation as intended: only the nine codes pass. */
  function Resolve(candidate: string): (r: string)
    ensures r in SUPPORTED
    ensures r == candidate || r == "en"
  {
    if candidate in SUPPORTED then candidate else "en"
  }

  /** As written, a stored preference of "toString" passes the validation
      although it is no supported code. */
  lemma InheritedNamePasses()
    ensures ResolveAsWritten(Candidate(Some("toString"), "en-US")) == "toString"
    ensures "toString" !in SUPPORTED
  {
    assert "toString" in INHERITED;
  }

  /** The two validations differ exactly on the inherited names. */
  lemma ResolveAgrees(candidate: string)
    ensures ResolveAsWritten(candidate) != Resolve(candidate) <==> candidate in INHERITED && candidate !in SUPPORTED
  {
    if candidate in INHERITED && candidate !in SUPPORTED {
      assert candidate != "en";
    }
  }

  /** An element carrying `data-i18n` or a tooltip. */
  datatype Element = Element(
    tagName: string,
    i18nKey: Option<string>,
    placeholder: string,
    textContent: string,
    isTooltip: bool,
    titleKey: Option<string>,
    title: string)

  /** The `data-i18n` pass on one element: a truthy translation goes to the
      placeholder of an INPUT or TEXTAREA, to the text of anything else. */
  function TranslateText(translations: map<string, string>, e: Element): Element {
    if e.i18nKey.Some? && HasTranslation(translations, e.i18nKey.value) then
      var text := translations[e.i18nKey.value];
      if e.tagName == "INPUT" || e.tagName == "TEXTAREA" then e.(placeholder := text)
      else e.(textContent := text)
    else e
  }

  /** The tooltip pass on one element: `data-bs-title` is set from a truthy
      translation of a non-empty `data-i18n-title`. */
  function TranslateTitle(translations: map<string, string>, e: Element): Element {
    if e.isTooltip && e.titleKey.Some? && e.titleKey.value != [] && HasTranslation(translations, e.titleKey.value)
    then e.(title := translations[e.titleKey.value])
    else e
  }

  function TranslateElement(translations: map<string, string>, e: Element): Element {
    TranslateTitle(translations, TranslateText(translations, e))
  }

  /** An element is rewritten only where its key has a truthy translation:
      input fields get the placeholder, other elements the text, and nothing
      else about the element changes. Applying the same table twice gives
      what applying it once gives. */
  lemma TranslateElementSpec(translations: map<string, string>, e: Element)
    ensures var r := TranslateElement(translations, e);
            && r.tagName == e.tagName && r.i18nKey == e.i18nKey
            && r.isTooltip == e.isTooltip && r.titleKey == e.titleKey
            && (r.placeholder != e.placeholder ==>
                  && e.i18nKey.Some? && HasTranslation(translations, e.i18nKey.value)
                  && (e.tagName == "INPUT" || e.tagName == "TEXTAREA")
                  && r.placeholder == translations[e.i18nKey.value])
            && (r.textContent != e.textContent ==>
                  && e.i18nKey.Some? && HasTranslation(translations, e.i18nKey.value)
                  && !(e.tagName == "INPUT" || e.tagName == "TEXTAREA")
                  && r.textContent == translations[e.i18nKey.value])
            && (e.i18nKey.Some? && HasTranslation(translations, e.i18nKey.value) ==>
                  if e.tagName == "INPUT" || e.tagName == "TEXTAREA"
                  then r.placeholder == translations[e.i18nKey.value] && r.textContent == e.textContent
                  else r.textContent == translations[e.i18nKey.value] && r.placeholder == e.placeholder)
            && (if e.isTooltip && e.titleKey.Some? && e.titleKey.value != [] && HasTranslation(translations, e.titleKey.value)
                then r.title == translations[e.titleKey.value]
                else r.title == e.title)
            && TranslateElement(translations, r) == r
  {
  }

  /** The texts `updateDynamicText` sets through `t`. */
  datatype DynamicText = DynamicText(
    dropZone: string,
    userInputPlaceholder: string,
    systemPromptPlaceholder: string,
    sendButton: string,
    resetButton: string)

  function DynamicTexts(translations: map<string, string>): DynamicText {
    DynamicText(
      "<i class=\"bi bi-cloud-upload me-2\"></i>" + Translate(translations, "drop_files"),
      Translate(translations, "type_message"),
      Translate(translations, "system_prompt_placeholder"),
      "<i class=\"bi bi-send-fill me-1\"></i>" + Translate(translations, "send_message"),
      "<i class=\"bi bi-trash3-fill me-1\"></i>" + Translate(translations, "reset_chat"))
  }

  /** Which table `loadLanguage(lang)` installs, and for which code: the
      language itself, or English after it failed, or nothing. */
  function LoadedLanguage(lang: string, fetch: string -> Option<map<string, string>>): Option<string> {
    if fetch(lang).Some? then Some(lang)
    else if lang != "en" && fetch("en").Some? then Some("en")
    else None
  }

  /** The files `loadLanguage(lang)` requests, in order. */
  function Requests(lang: string, fetch: string -> Option<map<string, string>>): (r: seq<string>)
    ensures 1 <= |r| <= 2 && r[0] == lang
    ensures |r| == 2 <==> fetch(lang).None? && lang != "en"
    ensures |r| == 2 ==> r[1] == "en"
  {
    if fetch(lang).None? && lang != "en" then [lang, "en"] else [lang]
  }

  /** A failed load retries once, with English, and never after English: the
      outcome depends on the answers for `lang` and "en" alone, and is `lang`
      or "en". */
  lemma LoadedLanguageSpec(lang: string, f: string -> Option<map<string, string>>, g: string -> Option<map<string, string>>)
    requires f(lang) == g(lang) && f("en") == g("en")
    ensures LoadedLanguage(lang, f) == LoadedLanguage(lang, g)
    ensures LoadedLanguage(lang, f).Some? ==> f(LoadedLanguage(lang, f).value).Some?
    ensures LoadedLanguage(lang, f).Some? ==>
              LoadedLanguage(lang, f).value == lang || (LoadedLanguage(lang, f).value == "en" && f(lang).None?)
    ensures LoadedLanguage(lang, f).None? <==> f(lang).None? && (lang == "en" || f("en").None?)
  {
  }

  /** The module state of js/localization.js, with the page elements it
      rewrites and the stored preference. */
  class Localizer {
    var translations: map<string, string>
    var currentLanguage: string
    var preference: Option<string>
    var elements: seq<Element>
    var dynamicText: DynamicText

    /** The state before any load: English with no strings. */
    constructor (page: seq<Element>, stored: Option<string>, shown: DynamicText)
      ensures translations == map[] && currentLanguage == "en"
      ensures elements == page && preference == stored && dynamicText == shown
    {
      translations := map[];
      currentLanguage := "en";
      preference := stored;
      elements := page;
      dynamicText := shown;
    }

    /** The state after `code` was installed with `table` over the page
        `before`: table, code and stored preference set, every marked element
        rewritten in place and the dynamic texts refreshed. */
    predicate Installed(code: string, table: map<string, string>, before: seq<Element>)
      reads this
    {
      && translations == table && currentLanguage == code && preference == Some(code)
      && |elements| == |before|
      && (forall i :: 0 <= i < |elements| ==> elements[i] == TranslateElement(table, before[i]))
      && dynamicText == DynamicTexts(table)
    }

    /** `t(key)` on the current table. */
    function T(key: string): (r: string)
      reads this
      ensures r == Translate(translations, key)
    {
      Translate(translations, key)
    }

    /** The success path of `loadLanguage`: install the table and the code,
        rewrite the marked elements one by one, refresh the dynamic texts and
        store the code. */
    method Install(lang: string, table: map<string, string>)
      modifies this
      ensures Installed(lang, table, old(elements))
    {
      translations := table;
      currentLanguage := lang;
      var i := 0;
      while i < |elements|
        invariant 0 <= i <= |elements| && |elements| == |old(elements)|
        invariant forall k :: 0 <= k < i ==> elements[k] == TranslateElement(table, old(elements)[k])
        invariant forall k :: i <= k < |elements| ==> elements[k] == old(elements)[k]
        invariant translations == table && currentLanguage == lang
      {
        elements := elements[i := TranslateElement(translations, elements[i])];
        i := i + 1;
      }
      dynamicText := DynamicTexts(translations);
      preference := Some(lang);
    }

    /** `loadLanguage(lang)`: on success the language is installed; on failure
        nothing changes, and a language other than English is followed by one
        load of English. Returns the files requested. */
    method LoadLanguage(lang: string, fetch: string -> Option<map<string, string>>)
      returns (requested: seq<string>)
      modifies this
      decreases if lang == "en" then 0 else 1
      ensures requested == Requests(lang, fetch)
      ensures match LoadedLanguage(lang, fetch)
              case None => unchanged(this)
              case Some(code) => Installed(code, fetch(code).value, old(elements))
    {
      var response := fetch(lang);
      if response.Some? {
        Install(lang, response.value);
        requested := [lang];
      } else if lang != "en" {
        var again := LoadLanguage("en", fetch);
        requested := [lang] + again;
      } else {
        requested := [lang];
      }
    }

    /** The start-up listener as written: the stored or browser language,
        validated by the lookup in `supportedLanguages`, is loaded. Returns the
        code chosen for the selector, which may be an inherited member name. */
    method Startup(navigatorLanguage: string, fetch: string -> Option<map<string, string>>)
      returns (selected: string)
      modifies this
      ensures selected == ResolveAsWritten(Candidate(old(preference), navigatorLanguage))
      ensures selected in SUPPORTED || selected in INHERITED
      ensures match LoadedLanguage(selected, fetch)
              case None => unchanged(this)
              case Some(code) => Installed(code, fetch(code).value, old(elements))
    {
      var savedLang := Candidate(preference, navigatorLanguage);
      selected := ResolveAsWritten(savedLang);
      var _ := LoadLanguage(selected, fetch);
    }

    /** The start-up listener with the validation as intended: only one of the
        nine supported codes is ever loaded. */
    method StartupIntended(navigatorLanguage: string, fetch: string -> Option<map<string, string>>)
      returns (selected: string)
      modifies this
      ensures selected == Resolve(Candidate(old(preference), navigatorLanguage))
      ensures selected in SUPPORTED
      ensures match LoadedLanguage(selected, fetch)
              case None => unchanged(this)
              case Some(code) => Installed(code, fetch(code).value, old(elements))
    {
      var savedLang := Candidate(preference, navigatorLanguage);
      selected := Resolve(savedLang);
      var _ := LoadLanguage(selected, fetch);
    }

    /** The selector's change listener: the load starts, the choice is stored
        at once, and a successful load stores its own code afterwards. */
    method SelectLanguage(selectedLang: string, fetch: string -> Option<map<string, string>>)
      modifies this
      ensures match LoadedLanguage(selectedLang, fetch)
              case None =>
                && preference == Some(selectedLang)
                && translations == old(translations) && currentLanguage == old(currentLanguage)
                && elements == old(elements) && dynamicText == old(dynamicText)
              case Some(code) => Installed(code, fetch(code).value, old(elements))
    {
      preference := Some(selectedLang);
      var _ := LoadLanguage(selectedLang, fetch);
    }
  }
}

=== FILE: ModelAdmin.dfy ===
/**
  The small text rules of the model-management part of js/script.js: which
  Ollama URLs the settings accept (js/script.js:703-714 and 947-959), the
  model type shown on a model card (js/script.js:860-861), the card's element
  id (js/script.js:863), and the name taken from the download box
  (js/script.js:1016-1024).
*/
module ModelAdmin {
  import opened Strings

  // ------------------------------------------------------------- API URL

  /** The trimmed input when it is a non-empty http or https URL. */
  function AcceptedUrl(input: string): (r: Option<string>)
    ensures r.Some? ==> r.value == Trim(input)
    ensures r.Some? ==> StartsWith(r.value, "http://") || StartsWith(r.value, "https://")
    ensures r.Some? <==> StartsWith(Trim(input), "http://") || StartsWith(Trim(input), "https://")
  {
    var newUrl := Trim(input);
    if newUrl != [] && (StartsWith(newUrl, "http://") || StartsWith(newUrl, "https://")) then Some(newUrl)
    else None
  }

  /** `OLLAMA_API_URL` and the value of the URL box. */
  datatype UrlSettings = UrlSettings(apiUrl: string, inputValue: string)

  /** One click listener of the update button: take a valid URL, or put the
      current one back into the box. */
  function UrlListener(st: UrlSettings): UrlSettings {
    match AcceptedUrl(st.inputValue)
    case Some(newUrl) => UrlSettings(newUrl, st.inputValue)
    case None => UrlSettings(st.apiUrl, st.apiUrl)
  }

  /** A URL the settings would accept as it stands. */
  predicate ValidApiUrl(url: string) {
    AcceptedUrl(url) == Some(url)
  }

  /** Trimming twice changes nothing. */
  lemma TrimIdempotent(s: string)
    ensures Trim(Trim(s)) == Trim(s)
  {
    TrimSpec(s);
    TrimOfTrimmed(Trim(s));
  }

  /** The button has two click listeners, and the second reads the box after
      the first. With a valid current URL, the pair leaves the same stored URL
      as one listener would: a valid input becomes the URL, anything else
      leaves the URL as it was; the URL stays valid either way. */
  lemma BothUrlListeners(st: UrlSettings)
    requires ValidApiUrl(st.apiUrl)
    ensures var after := UrlListener(UrlListener(st));
            && after.apiUrl == (if AcceptedUrl(st.inputValue).Some? then Trim(st.inputValue) else st.apiUrl)
            && ValidApiUrl(after.apiUrl)
  {
    var first := UrlListener(st);
    match AcceptedUrl(st.inputValue)
    case Some(newUrl) =>
      TrimIdempotent(st.inputValue);
      assert AcceptedUrl(newUrl) == Some(newUrl);
    case None =>
      assert first.inputValue == st.apiUrl;
  }

  // ---------------------------------------------------------- model type

  /** The index of the first element satisfying `p`, if any: `find`. */
  function FindFirst<T>(xs: seq<T>, p: T -> bool): (r: Option<nat>)
    ensures r.Some? ==> r.value < |xs| && p(xs[r.value])
    ensures r.Some? ==> forall j :: 0 <= j < r.value ==> !p(xs[j])
    ensures r.None? ==> forall j :: 0 <= j < |xs| ==> !p(xs[j])
    decreases |xs|
  {
    if xs == [] then None
    else if p(xs[0]) then Some(0)
    else match FindFirst(xs[1..], p)
      case None => None
      case Some(i) => Some(i + 1)
  }

  /** `details.modelfile?.split('\n').find(line => line.startsWith('FROM'))
      ?.replace('FROM ', '') || 'Unknown'`; `None` is a missing modelfile. */
  function ModelType(modelfile: Option<string>): (r: string)
    ensures r != []
  {
    if modelfile.None? then "Unknown"
    else
      var lines := Split(modelfile.value, '\n');
      match FindFirst(lines, (line: string) => StartsWith(line, "FROM"))
      case None => "Unknown"
      case Some(i) =>
        var t := ReplaceFirst(lines[i], "FROM ", "");
        if t == [] then "Unknown" else t
  }

  /** The first line that starts with "FROM " decides the type: what follows
      the keyword, when there is anything. */
  lemma ModelTypeFromLine(modelfile: string, i: nat)
    requires i < |Split(modelfile, '\n')|
    requires var lines := Split(modelfile, '\n');
             && StartsWith(lines[i], "FROM ") && |lines[i]| > 5
             && forall j :: 0 <= j < i ==> !StartsWith(lines[j], "FROM")
    ensures ModelType(Some(modelfile)) == Split(modelfile, '\n')[i][5..]
  {
    var lines := Split(modelfile, '\n');
    var line := lines[i];
    KeywordLine(line);
    var found := FindFirst(lines, (line: string) => StartsWith(line, "FROM"));
    assert found == Some(i);
    IndexOfAt(line, "FROM ", 0);
    assert ReplaceFirst(line, "FROM ", "") == line[5..];
  }

  /** A line that starts with "FROM " starts with "FROM". */
  lemma KeywordLine(line: string)
    requires StartsWith(line, "FROM ")
    ensures StartsWith(line, "FROM")
  {
    forall k | 0 <= k < 4 ensures line[k] == "FROM"[k] {
      assert line[k] == "FROM "[k];
    }
  }

  /** Without a line starting with "FROM" the type is "Unknown". */
  lemma ModelTypeWithoutFrom(modelfile: string)
    requires forall j :: 0 <= j < |Split(modelfile, '\n')| ==> !StartsWith(Split(modelfile, '\n')[j], "FROM")
    ensures ModelType(Some(modelfile)) == "Unknown"
  {
  }

  // -------------------------------------------------------------- card id

  predicate IsAsciiAlphanumeric(c: char) {
    ('a' <= c <= 'z') || ('A' <= c <= 'Z') || ('0' <= c <= '9')
  }

  /** `name.replace(/[^a-zA-Z0-9]/g, '-')`. */
  function Sanitize(name: string): (r: string)
    decreases |name|
  {
    if name == [] then []
    else [if IsAsciiAlphanumeric(name[0]) then name[0] else '-'] + Sanitize(name[1..])
  }

  /** The id of a model's card. */
  function CardId(name: string): string {
    "model-" + Sanitize(name)
  }

  /** The sanitised name keeps its length and its letters and digits, and has
      '-' everywhere else. */
  lemma {:induction false} SanitizeSpec(name: string)
    ensures |Sanitize(name)| == |name|
    ensures forall i :: 0 <= i < |name| ==>
              Sanitize(name)[i] == if IsAsciiAlphanumeric(name[i]) then name[i] else '-'
    decreases |name|
  {
    if name != [] {
      SanitizeSpec(name[1..]);
      var r := Sanitize(name);
      forall i | 0 < i < |name|
        ensures r[i] == if IsAsciiAlphanumeric(name[i]) then name[i] else '-'
      {
        assert r[i] == Sanitize(name[1..])[i - 1] && name[i] == name[1..][i - 1];
      }
    }
  }

  /** Sanitising a sanitised name changes nothing. */
  lemma SanitizeIdempotent(name: string)
    ensures Sanitize(Sanitize(name)) == Sanitize(name)
  {
    SanitizeSpec(name);
    SanitizeSpec(Sanitize(name));
  }

  /** Two models share a card id exactly when their names have the same
      length and the same letters and digits in the same places, whatever the
      other characters are. */
  lemma CardIdSameIff(a: string, b: string)
    ensures CardId(a) == CardId(b) <==>
              && |a| == |b|
              && forall i :: 0 <= i < |a| ==>
                   (IsAsciiAlphanumeric(a[i]) || IsAsciiAlphanumeric(b[i])) ==> a[i] == b[i]
  {
    SanitizeSpec(a);
    SanitizeSpec(b);
    if CardId(a) == CardId(b) {
      assert Sanitize(a) == CardId(a)[6..] == CardId(b)[6..] == Sanitize(b);
      forall i | 0 <= i < |a| && (IsAsciiAlphanumeric(a[i]) || IsAsciiAlphanumeric(b[i]))
        ensures a[i] == b[i]
      {
        assert Sanitize(a)[i] == Sanitize(b)[i];
      }
    }
    if |a| == |b| && forall i :: 0 <= i < |a| ==>
                   (IsAsciiAlphanumeric(a[i]) || IsAsciiAlphanumeric(b[i])) ==> a[i] == b[i] {
      assert Sanitize(a) == Sanitize(b);
    }
  }

  // ---------------------------------------------------------- pull prefix

  /** ASCII letters folded to lower case, as a non-Unicode `/i` pattern
      matches them. */
  function LowerAscii(c: char): char {
    if 'A' <= c <= 'Z' then (c as int + 32) as char else c
  }

  /** The lower-case word `w` occurs at `i`, ignoring case. */
  predicate MatchesIgnoringCase(s: string, i: nat, w: string) {
    i + |w| <= |s| && forall k :: 0 <= k < |w| ==> LowerAscii(s[i + k]) == w[k]
  }

  /** The end of the run of white space starting at `i`. */
  function SkipWhitespace(s: string, i: nat): (r: nat)
    requires i <= |s|
    ensures i <= r <= |s|
    ensures forall k :: i <= k < r ==> IsWhitespace(s[k])
    ensures r == |s| || !IsWhitespace(s[r])
    decreases |s| - i
  {
    if i < |s| && IsWhitespace(s[i]) then SkipWhitespace(s, i + 1) else i
  }

  /** `replace(/^ollama\s+pull\s+/i, '')`: both white-space runs are greedy,
      and "pull" cannot start inside a run, so no other match is possible. */
  function StripPullPrefix(s: string): (r: string)
    ensures r == s || (MatchesIgnoringCase(s, 0, "ollama") && |r| < |s| && r == s[|s| - |r|..])
  {
    if MatchesIgnoringCase(s, 0, "ollama") then
      var a := SkipWhitespace(s, 6);
      if a > 6 && MatchesIgnoringCase(s, a, "pull") then
        var b := SkipWhitespace(s, a + 4);
        if b > a + 4 then s[b..] else s
      else s
    else s
  }

  /** A white-space run followed by a non-white-space character (or the end)
      is skipped whole. */
  lemma {:induction false} SkipRun(s: string, i: nat, j: nat)
    requires i <= j <= |s|
    requires forall k :: i <= k < j ==> IsWhitespace(s[k])
    requires j == |s| || !IsWhitespace(s[j])
    ensures SkipWhitespace(s, i) == j
    decreases j - i
  {
    if i < j {
      SkipRun(s, i + 1, j);
    }
  }

  /** The command a user pastes, "ollama pull <name>" in any letter case and
      with any white space between the words, leaves the name alone. */
  lemma PullCommandStripped(ollama: string, gap1: string, pull: string, gap2: string, name: string)
    requires MatchesIgnoringCase(ollama, 0, "ollama") && |ollama| == 6
    requires MatchesIgnoringCase(pull, 0, "pull") && |pull| == 4
    requires gap1 != [] && AllWhitespace(gap1) && gap2 != [] && AllWhitespace(gap2)
    requires name == [] || !IsWhitespace(name[0])
    ensures StripPullPrefix(ollama + gap1 + pull + gap2 + name) == name
  {
    var s := ollama + gap1 + pull + gap2 + name;
    var a := 6 + |gap1|;
    var b := a + 4 + |gap2|;
    assert s[..6] == ollama && s[6..a] == gap1 && s[a..a + 4] == pull && s[a + 4..b] == gap2 && s[b..] == name;
    assert MatchesIgnoringCase(s, 0, "ollama") by {
      forall k | 0 <= k < 6 ensures LowerAscii(s[k]) == "ollama"[k] {
        assert s[k] == ollama[k];
      }
    }
    assert !IsWhitespace(s[a]) by {
      assert s[a] == pull[0];
      assert LowerAscii(pull[0 + 0]) == "pull"[0];
    }
    SkipRun(s, 6, a);
    assert MatchesIgnoringCase(s, a, "pull") by {
      forall k | 0 <= k < 4 ensures LowerAscii(s[a + k]) == "pull"[k] {
        assert s[a + k] == pull[k];
      }
    }
    assert b == |s| || !IsWhitespace(s[b]) by {
      if b < |s| {
        assert s[b] == name[0];
      }
    }
    SkipRun(s, a + 4, b);
  }

  /** The model name the download uses: the trimmed input without the pull
      command, or `None` (an alert) when nothing is left. */
  function ModelNameToPull(input: string): (r: Option<string>)
    ensures r.Some? ==> r.value != [] && r.value == StripPullPrefix(Trim(input))
    ensures r.None? <==> StripPullPrefix(Trim(input)) == []
  {
    var modelName := StripPullPrefix(Trim(input));
    if modelName == [] then None else Some(modelName)
  }
}

=== FILE: Payload.dfy ===
/**
  The request `sendMessage` builds (js/script.js:357-384) and the user turn it
  keeps in the conversation history (js/script.js:404-409).

  With files attached, the text sent for the user turn is a preamble naming
  each file, then the content of every non-image file, then the typed text.
  Image files travel separately, as the base64 part of their data URL.
*/
module Payload {
  import opened Strings

  datatype Role = System | User | Assistant

  /** One entry of `messages`. `images` is the optional field: absent, or the
      list of base64 payloads, where `None` is what `split(',')[1]` gives for a
      data URL without a comma (`undefined`, sent as `null`). */
  datatype ChatMessage = ChatMessage(role: Role, content: string, images: Option<seq<Option<string>>>)

  /** An entry of `attachedFiles`. */
  datatype AttachedFile = AttachedFile(id: string, name: string, content: string, mimeType: string)

  const FILES_PREAMBLE := "User has attached the following files:\n"
  const TYPED_HEADER := "\nUser's typed message:\n"
  const NO_TYPED_MESSAGE := "(No typed message)"

  predicate IsImage(f: AttachedFile) {
    StartsWith(f.mimeType, "image/")
  }

  /** The preamble line naming one file and its type. */
  function FileLine(f: AttachedFile): string {
    "- \"" + EscapeHtml(f.name) + "\" (" + f.mimeType + ")\n"
  }

  /** The fenced block carrying a file's content: none for an image. */
  function ContentBlock(f: AttachedFile): (r: string)
    ensures r == [] <==> IsImage(f)
  {
    if IsImage(f) then []
    else "\n\nContent of \"" + EscapeHtml(f.name) + "\":\n```\n" + f.content + "\n```\n"
  }

  /** `file.content.split(',')[1]`: what follows the first comma of the data
      URL, up to a second comma if there is one. */
  function ImageData(f: AttachedFile): (r: Option<string>)
    ensures r.Some? <==> ',' in f.content
  {
    SplitSeveralIff(f.content, ',');
    SplitPart(f.content, ',', 1)
  }

  /** The image payloads, one per image file, in list order. */
  function Images(files: seq<AttachedFile>): (r: seq<Option<string>>)
    ensures |r| <= |files|
    decreases |files|
  {
    if files == [] then []
    else
      var last := files[|files| - 1];
      Images(files[..|files| - 1]) + (if IsImage(last) then [ImageData(last)] else [])
  }

  /** The payloads are exactly the image data of the image files, in list
      order: `ImageData` over `files.filter(isImage)`. */
  lemma {:induction false} ImagesOfImageFiles(files: seq<AttachedFile>)
    ensures var imgs := Filter(files, IsImage);
            Images(files) == seq(|imgs|, i requires 0 <= i < |imgs| => ImageData(imgs[i]))
    decreases |files|
  {
    if files != [] {
      var init, last := files[..|files| - 1], files[|files| - 1];
      ImagesOfImageFiles(init);
      var a := Filter(init, IsImage);
      if IsImage(last) {
        var b := a + [last];
        assert Filter(files, IsImage) == b;
        assert seq(|b|, i requires 0 <= i < |b| => ImageData(b[i]))
            == seq(|a|, i requires 0 <= i < |a| => ImageData(a[i])) + [ImageData(last)];
      }
    }
  }

  /** `userMessageForApi`: the typed text alone when nothing is attached. */
  function ApiText(files: seq<AttachedFile>, messageText: string): string {
    if files == [] then messageText
    else
      FILES_PREAMBLE + ConcatMap(files, FileLine) + ConcatMap(files, ContentBlock)
      + TYPED_HEADER + (if messageText == [] then NO_TYPED_MESSAGE else messageText)
  }

  /** The current user turn, with `images` set only when there is one. */
  function UserMessage(files: seq<AttachedFile>, messageText: string): ChatMessage {
    var images := Images(files);
    ChatMessage(User, ApiText(files, messageText), if images == [] then None else Some(images))
  }

  /** The loop over `attachedFiles` that builds the preamble, the content
      blocks and the image list, and the message made from them. */
  method BuildUserMessage(files: seq<AttachedFile>, messageText: string) returns (msg: ChatMessage)
    ensures msg == UserMessage(files, messageText)
  {
    var userMessageForApi := messageText;
    var imagesForApi: seq<Option<string>> := [];
    if |files| > 0 {
      var filePreamble := FILES_PREAMBLE;
      var textFileContents := "";
      for i := 0 to |files|
        invariant filePreamble == FILES_PREAMBLE + ConcatMap(files[..i], FileLine)
        invariant textFileContents == ConcatMap(files[..i], ContentBlock)
        invariant imagesForApi == Images(files[..i])
      {
        var file := files[i];
        var safeFilename := EscapeHtml(file.name);
        ConcatMapSnoc(files, FileLine, i);
        ConcatMapSnoc(files, ContentBlock, i);
        assert files[..i + 1][..i] == files[..i];
        Assoc2(FILES_PREAMBLE, ConcatMap(files[..i], FileLine), FileLine(file));
        filePreamble := filePreamble + ("- \"" + safeFilename + "\" (" + file.mimeType + ")\n");
        if StartsWith(file.mimeType, "image/") {
          imagesForApi := imagesForApi + [SplitPart(file.content, ',', 1)];
        } else {
          textFileContents := textFileContents
            + ("\n\nContent of \"" + safeFilename + "\":\n```\n" + file.content + "\n```\n");
        }
      }
      assert files[..|files|] == files;
      userMessageForApi := filePreamble + textFileContents + TYPED_HEADER
        + (if messageText == [] then NO_TYPED_MESSAGE else messageText);
    }
    msg := ChatMessage(User, userMessageForApi, if |imagesForApi| > 0 then Some(imagesForApi) else None);
  }

  /** `images` is sent exactly when at least one attached file is an image. */
  lemma {:induction false} ImagesPresentIff(files: seq<AttachedFile>)
    ensures Images(files) != [] <==> exists i :: 0 <= i < |files| && IsImage(files[i])
    decreases |files|
  {
    if files != [] {
      var init := files[..|files| - 1];
      ImagesPresentIff(init);
      if exists i :: 0 <= i < |init| && IsImage(init[i]) {
        var i :| 0 <= i < |init| && IsImage(init[i]);
        assert IsImage(files[i]);
      }
      if exists i :: 0 <= i < |files| && IsImage(files[i]) {
        var i :| 0 <= i < |files| && IsImage(files[i]);
        if i < |init| {
          assert IsImage(init[i]);
        }
      }
    }
  }

  /** The i-th file's preamble line follows the preamble header and the lines
      of the files before it: one line per file, in list order. */
  lemma FileLineInOrder(files: seq<AttachedFile>, messageText: string, i: nat)
    requires i < |files|
    ensures OccursAt(ApiText(files, messageText),
                     |FILES_PREAMBLE| + |ConcatMap(files[..i], FileLine)|, FileLine(files[i]))
  {
    var before, after := ConcatMap(files[..i], FileLine), ConcatMap(files[i + 1..], FileLine);
    ConcatMapAt(files, FileLine, i);
    OccursInMiddle(FILES_PREAMBLE, before, FileLine(files[i]), after, ConcatMap(files, ContentBlock),
                   TYPED_HEADER, if messageText == [] then NO_TYPED_MESSAGE else messageText);
  }

  /** A piece placed between other pieces occurs right after those before it. */
  lemma OccursInMiddle(a: string, before: string, p: string, after: string, c: string, d: string, e: string)
    ensures OccursAt(a + (before + p + after) + c + d + e, |a| + |before|, p)
  {
    var s := a + (before + p + after) + c + d + e;
    forall k | 0 <= k < |p| ensures s[|a| + |before| + k] == p[k] {
      assert s[|a| + |before| + k] == (before + p + after)[|before| + k];
    }
  }

  /** `systemPromptInput.value.trim()`, sent only when non-empty. */
  function SystemMessages(rawPrompt: string): seq<ChatMessage> {
    var prompt := Trim(rawPrompt);
    if prompt == [] then [] else [ChatMessage(System, prompt, None)]
  }

  /** `messagesForApiPayload`: system prompt, history, current user turn. */
  function PayloadMessages(rawPrompt: string, history: seq<ChatMessage>, current: ChatMessage): seq<ChatMessage> {
    SystemMessages(rawPrompt) + history + [current]
  }

  /** A history without system messages: what the conversation keeps. */
  predicate NoSystemTurns(history: seq<ChatMessage>) {
    forall i :: 0 <= i < |history| ==> history[i].role != System
  }

  /** The request holds a system message exactly when the trimmed prompt is
      non-empty, and then only as its first entry; the history follows
      unchanged and in order; the current turn comes last. */
  lemma PayloadOrder(rawPrompt: string, history: seq<ChatMessage>, current: ChatMessage)
    requires NoSystemTurns(history) && current.role != System
    ensures var r := PayloadMessages(rawPrompt, history, current);
            var k := |r| - |history| - 1;
            && (k == 1 <==> Trim(rawPrompt) != []) && (k == 0 <==> Trim(rawPrompt) == [])
            && (forall i :: 0 <= i < |r| ==> (r[i].role == System <==> i == 0 && Trim(rawPrompt) != []))
            && (k == 1 ==> r[0].content == Trim(rawPrompt))
            && r[k..|r| - 1] == history
            && r[|r| - 1] == current
  {
    var r := PayloadMessages(rawPrompt, history, current);
    var k := |SystemMessages(rawPrompt)|;
    forall i | k <= i < |r| - 1 ensures r[i] == history[i - k] { }
  }

  /** `fileNamesForHistory` before the join. */
  function FileNames(files: seq<AttachedFile>): seq<string> {
    seq(|files|, i requires 0 <= i < |files| => EscapeHtml(files[i].name))
  }

  /** The user turn pushed to the history: the typed text, prefixed by the
      attached file names when there are any, and trimmed. */
  function HistoryUserContent(files: seq<AttachedFile>, messageText: string): string {
    if files == [] then messageText
    else Trim("(Files: " + Join(FileNames(files), ", ") + ") " + messageText)
  }

  /** No white space at either end: what `trim()` leaves. */
  predicate Trimmed(s: string) {
    s == [] || (!IsWhitespace(s[0]) && !IsWhitespace(s[|s| - 1]))
  }

  /** With files attached and the typed text already trimmed, the history entry
      is the name list in parentheses, followed by a space and the text when
      there is one: the trim only removes the space before an empty text. */
  lemma HistoryUserContentShape(files: seq<AttachedFile>, messageText: string)
    requires files != [] && Trimmed(messageText)
    ensures messageText == [] ==>
              HistoryUserContent(files, messageText) == "(Files: " + Join(FileNames(files), ", ") + ")"
    ensures messageText != [] ==>
              HistoryUserContent(files, messageText) == "(Files: " + Join(FileNames(files), ", ") + ") " + messageText
  {
    var head := "(Files: " + Join(FileNames(files), ", ") + ")";
    assert head[0] == '(' && head[|head| - 1] == ')';
    if messageText == [] {
      assert "(Files: " + Join(FileNames(files), ", ") + ") " + messageText == head + " ";
      assert AllWhitespace(" ");
      TrimIgnoresTrailingSpace(head, " ");
      TrimOfTrimmed(head);
    } else {
      var s := "(Files: " + Join(FileNames(files), ", ") + ") " + messageText;
      assert s[0] == '(' && s[|s| - 1] == messageText[|messageText| - 1];
      TrimOfTrimmed(s);
    }
  }
}

=== FILE: StreamAssembly.dfy ===
/**
  How the streamed chat reply becomes text (the read loop of `sendMessage`,
  js/script.js:418-440). Each network chunk is split on '\n', blank lines are
  dropped, every remaining line is handed to the JSON parser, and each
  non-empty `message.content` piece is appended to the reply, wrapped in
  `<think>` tags first when it contains one of four lead-in phrases.

  The JSON parser is not modelled: a parameter `parse` stands for it and says
  what each line parses to. Nothing is carried from one chunk to the next, so
  a line cut in two by the network is lost (see SplitLineIsLost).
*/
module StreamAssembly {
  import opened Strings
  import opened ThinkTags

  /** What `JSON.parse(line)` yields, as far as the loop looks at it: a throw,
      or an object whose `message.content` may be missing. */
  datatype ParsedLine = Malformed | Event(content: Option<string>)

  /** The four phrases that mark a piece as the model's thinking. */
  predicate HasLeadIn(piece: string) {
    || Contains(piece, "AI Thoughts")
    || Contains(piece, "Let me")
    || Contains(piece, "I'll")
    || Contains(piece, "First,")
  }

  /** The text one content piece adds to the reply. */
  function PieceText(piece: string): string {
    if HasLeadIn(piece) then Wrap(THINK, piece) else piece
  }

  /** A piece is passed through untouched exactly when it has no lead-in. */
  lemma PieceTextUnchangedIff(piece: string)
    ensures PieceText(piece) == piece <==> !HasLeadIn(piece)
  {
    if HasLeadIn(piece) {
      assert |PieceText(piece)| == |piece| + 15;
    }
  }

  /** The text one parsed line adds: its content when that is a non-empty
      string, nothing for a line that does not parse or has no content. */
  function LineText(parsed: ParsedLine): (r: string)
    ensures r == [] <==> (parsed.Malformed? || parsed.content.None? || parsed.content.value == [])
  {
    match parsed
    case Event(Some(c)) => if c == [] then [] else PieceText(c)
    case _ => []
  }

  /** `line.trim() !== ''`: the filter the loop applies before parsing. */
  predicate NotBlank(line: string) {
    Trim(line) != []
  }

  /** What a sequence of (non-blank) lines adds, in order. */
  function LinesText(lines: seq<string>, parse: string -> ParsedLine): string {
    ConcatMap(lines, (line: string) => LineText(parse(line)))
  }

  /** `chunk.split('\n').filter(line => line.trim() !== '')`. */
  function ChunkLines(chunk: string): seq<string> {
    Filter(Split(chunk, '\n'), NotBlank)
  }

  /** What one decoded chunk adds to the reply. */
  function ChunkText(chunk: string, parse: string -> ParsedLine): string {
    LinesText(ChunkLines(chunk), parse)
  }

  /** What the whole stream adds, chunk after chunk: `aiResponseContent` at the
      end of a read loop that saw `chunks`. */
  function StreamText(chunks: seq<string>, parse: string -> ParsedLine): string {
    ConcatMap(chunks, (chunk: string) => ChunkText(chunk, parse))
  }

  /** Chunks cut at a line break lose nothing: the text of two chunks glued by
      '\n' is the text of the first followed by the text of the second. */
  lemma ChunkTextAtLineBreak(x: string, y: string, parse: string -> ParsedLine)
    ensures ChunkText(x + ['\n'] + y, parse) == ChunkText(x, parse) + ChunkText(y, parse)
  {
    SplitAtSeparator(x, y, '\n');
    FilterAppend(Split(x, '\n'), Split(y, '\n'), NotBlank);
    ConcatMapAppend(ChunkLines(x), ChunkLines(y), (line: string) => LineText(parse(line)));
  }

  /** The reply of a stream is the reply of its first part followed by the
      reply of the rest. */
  lemma StreamTextAppend(a: seq<string>, b: seq<string>, parse: string -> ParsedLine)
    ensures StreamText(a + b, parse) == StreamText(a, parse) + StreamText(b, parse)
  {
    ConcatMapAppend(a, b, (chunk: string) => ChunkText(chunk, parse));
  }

  /** Lines that are blank are never handed to the parser: two parsers that
      agree on every non-blank line give the same reply. */
  lemma BlankLinesNeverParsed(chunks: seq<string>, p1: string -> ParsedLine, p2: string -> ParsedLine)
    requires forall line :: NotBlank(line) ==> p1(line) == p2(line)
    ensures StreamText(chunks, p1) == StreamText(chunks, p2)
  {
    forall i | 0 <= i < |chunks| ensures ChunkText(chunks[i], p1) == ChunkText(chunks[i], p2) {
      var lines := ChunkLines(chunks[i]);
      ConcatMapAgree(lines, (line: string) => LineText(p1(line)), (line: string) => LineText(p2(line)));
    }
    ConcatMapAgree(chunks, (chunk: string) => ChunkText(chunk, p1), (chunk: string) => ChunkText(chunk, p2));
  }

  /** A chunk holding one non-blank line and no line break adds exactly that
      line's text. */
  lemma SingleLineChunk(line: string, parse: string -> ParsedLine)
    requires '\n' !in line && NotBlank(line)
    ensures ChunkText(line, parse) == LineText(parse(line))
  {
    SplitWithoutSeparator(line, '\n');
    assert [line][..0] == [];
    assert ChunkLines(line) == [line];
    ConcatMapOne(line, (l: string) => LineText(parse(l)));
  }

  /** No carry-over between chunks: a line the network cuts in two, whose
      halves do not parse on their own, adds nothing, although the same line in
      one chunk adds its content. */
  lemma SplitLineIsLost(line: string, k: nat, parse: string -> ParsedLine)
    requires 0 < k < |line| && '\n' !in line
    requires NotBlank(line[..k]) && NotBlank(line[k..]) && NotBlank(line)
    requires parse(line[..k]).Malformed? && parse(line[k..]).Malformed?
    ensures StreamText([line], parse) == LineText(parse(line))
    ensures StreamText([line[..k], line[k..]], parse) == []
  {
    SingleLineChunk(line, parse);
    assert '\n' !in line[..k] && '\n' !in line[k..] by {
      assert forall i :: 0 <= i < k ==> line[..k][i] == line[i];
      assert forall i :: 0 <= i < |line| - k ==> line[k..][i] == line[k + i];
    }
    SingleLineChunk(line[..k], parse);
    SingleLineChunk(line[k..], parse);
    ConcatMapOne(line, (chunk: string) => ChunkText(chunk, parse));
    ConcatMapTwo(line[..k], line[k..], (chunk: string) => ChunkText(chunk, parse));
  }

  /** "</think>" cannot overlap itself. */
  lemma CloseTagNoBorder()
    ensures NoBorder(THINK.close)
  {
    var p := THINK.close;
    forall d | 0 < d < |p| ensures ShiftDiffers(p, d) {
      assert p[d + 0] != p[0];
    }
  }

  /** A wrapped lead-in piece that holds no closing tag of its own is shown as
      exactly one think block, numbered 0, holding the piece. */
  lemma WrappedPieceIsOneBlock(piece: string)
    requires HasLeadIn(piece) && forall j :: !OccursAt(piece, j, THINK.close)
    ensures ProcessThinkTagsInMarkdown(PieceText(piece))
         == Extraction(Placeholder(THINK, 0), [ThinkBlock(0, piece)])
  {
    CloseTagNoBorder();
    SingleSpan(THINK, piece);
  }
}

=== FILE: Strings.dfy ===
/**
  Text helpers the chat client leans on: JavaScript's `trim()`, `startsWith`,
  `endsWith`, `includes`, `indexOf`, `split` on one character, `join`, and the
  decimal rendering of a counter. Strings are sequences of Unicode scalar values.
*/
module Strings {

  datatype Option<+T> = None | Some(value: T)

  /** The characters that `String.prototype.trim` strips and that the regular
      expression class `\s` matches: ECMAScript WhiteSpace and LineTerminator. */
  predicate IsWhitespace(c: char) {
    || c == '\t' || c == '\n' || c == '\U{000B}' || c == '\U{000C}' || c == '\r'
    || c == ' ' || c == '\U{00A0}' || c == '\U{1680}'
    || ('\U{2000}' <= c <= '\U{200A}')
    || c == '\U{2028}' || c == '\U{2029}' || c == '\U{202F}' || c == '\U{205F}'
    || c == '\U{3000}' || c == '\U{FEFF}'
  }

  predicate AllWhitespace(s: string) {
    forall i :: 0 <= i < |s| ==> IsWhitespace(s[i])
  }

  /** Drops leading white space. */
  function TrimStart(s: string): (r: string)
    ensures |r| <= |s|
  {
    if s != [] && IsWhitespace(s[0]) then TrimStart(s[1..]) else s
  }

  /** Drops trailing white space. */
  function TrimEnd(s: string): (r: string)
    ensures |r| <= |s|
  {
    if s != [] && IsWhitespace(s[|s| - 1]) then TrimEnd(s[..|s| - 1]) else s
  }

  /** What TrimStart keeps is a suffix that starts with a non-white-space
      character (or is empty), and what it drops is all white space. */
  lemma {:induction false} TrimStartSpec(s: string)
    ensures TrimStart(s) == s[|s| - |TrimStart(s)|..]
    ensures TrimStart(s) == [] || !IsWhitespace(TrimStart(s)[0])
    ensures AllWhitespace(s[..|s| - |TrimStart(s)|])
    decreases |s|
  {
    if s != [] && IsWhitespace(s[0]) {
      var t := s[1..];
      var r := TrimStart(t);
      TrimStartSpec(t);
      assert TrimStart(s) == r;
      assert t[|t| - |r|..] == s[|s| - |r|..];
      var w, v := s[..|s| - |r|], t[..|t| - |r|];
      forall i | 0 <= i < |w| ensures IsWhitespace(w[i]) {
        if i > 0 {
          assert w[i] == v[i - 1];
        }
      }
    }
  }

  /** What TrimEnd keeps is a prefix that ends with a non-white-space character
      (or is empty), and what it drops is all white space. */
  lemma {:induction false} TrimEndSpec(s: string)
    ensures TrimEnd(s) == s[..|TrimEnd(s)|]
    ensures TrimEnd(s) == [] || !IsWhitespace(TrimEnd(s)[|TrimEnd(s)| - 1])
    ensures AllWhitespace(s[|TrimEnd(s)|..])
    decreases |s|
  {
    if s != [] && IsWhitespace(s[|s| - 1]) {
      var r := TrimEnd(s[..|s| - 1]);
      TrimEndSpec(s[..|s| - 1]);
      assert s[|r|..] == s[..|s| - 1][|r|..] + [s[|s| - 1]];
    }
  }

  /** `String.prototype.trim`: white space removed at both ends. */
  function Trim(s: string): (r: string)
    ensures |r| <= |s|
  {
    TrimStart(TrimEnd(s))
  }

  /** The trimmed string is a slice of the input with white space only around
      it, and has none at either end. */
  lemma TrimSpec(s: string)
    ensures exists i :: 0 <= i <= |s| - |Trim(s)| && Trim(s) == s[i..i + |Trim(s)|]
              && AllWhitespace(s[..i]) && AllWhitespace(s[i + |Trim(s)|..])
    ensures Trim(s) == [] || (!IsWhitespace(Trim(s)[0]) && !IsWhitespace(Trim(s)[|Trim(s)| - 1]))
  {
    var e := TrimEnd(s);
    TrimEndSpec(s);
    TrimStartSpec(e);
    var r := Trim(s);
    var i := |e| - |r|;
    assert r == s[i..i + |r|];
    assert s[..i] == e[..i];
    assert s[i + |r|..] == s[|e|..];
  }

  /** A string is trimmed to nothing exactly when it is all white space. */
  lemma TrimEmptyIff(s: string)
    ensures Trim(s) == [] <==> AllWhitespace(s)
  {
    TrimSpec(s);
    if AllWhitespace(s) {
      TrimEndAllWhitespace(s);
    }
  }

  lemma {:induction false} TrimEndAllWhitespace(s: string)
    requires AllWhitespace(s)
    ensures TrimEnd(s) == []
    decreases |s|
  {
    if s != [] {
      TrimEndAllWhitespace(s[..|s| - 1]);
    }
  }

  /** Trimming ignores white space appended at the end. */
  lemma {:induction false} TrimEndIgnoresTrailingSpace(s: string, w: string)
    requires AllWhitespace(w)
    ensures TrimEnd(s + w) == TrimEnd(s)
    decreases |w|
  {
    if w != [] {
      var w' := w[..|w| - 1];
      assert IsWhitespace((s + w)[|s + w| - 1]);
      assert (s + w)[..|s + w| - 1] == s + w';
      TrimEndIgnoresTrailingSpace(s, w');
    } else {
      assert s + w == s;
    }
  }

  lemma TrimIgnoresTrailingSpace(s: string, w: string)
    requires AllWhitespace(w)
    ensures Trim(s + w) == Trim(s)
  {
    TrimEndIgnoresTrailingSpace(s, w);
  }

  /** A string with no white space at either end is its own trim. */
  lemma TrimOfTrimmed(s: string)
    requires s == [] || (!IsWhitespace(s[0]) && !IsWhitespace(s[|s| - 1]))
    ensures Trim(s) == s
  {
  }

  /** `p` occurs in `s` starting at index `i`. */
  predicate OccursAt(s: string, i: int, p: string) {
    0 <= i && i + |p| <= |s| && forall k :: 0 <= k < |p| ==> s[i + k] == p[k]
  }

  /** `startsWith`. */
  predicate StartsWith(s: string, p: string) {
    OccursAt(s, 0, p)
  }

  /** `endsWith`. */
  predicate EndsWith(s: string, p: string) {
    OccursAt(s, |s| - |p|, p)
  }

  /** An occurrence is a slice equal to the pattern. */
  lemma OccursAtSlice(s: string, i: int, p: string)
    ensures OccursAt(s, i, p) <==> 0 <= i && i + |p| <= |s| && s[i..i + |p|] == p
  {
    if 0 <= i && i + |p| <= |s| && s[i..i + |p|] == p {
      forall k | 0 <= k < |p| ensures s[i + k] == p[k] {
        assert s[i..i + |p|][k] == p[k];
      }
    }
  }

  lemma OccursAtPrefix(s: string, t: string, j: int, p: string)
    requires j + |p| <= |s|
    ensures OccursAt(s + t, j, p) <==> OccursAt(s, j, p)
  {
    if 0 <= j && OccursAt(s + t, j, p) {
      forall m | 0 <= m < |p| ensures s[j + m] == p[m] {
        assert (s + t)[j + m] == p[m];
      }
    }
  }

  /** Occurrences in the part after a prefix are occurrences in the whole,
      shifted by the prefix's length. */
  lemma OccursAtShift(a: string, b: string, j: int, p: string)
    requires 0 <= j
    ensures OccursAt(a + b, |a| + j, p) <==> OccursAt(b, j, p)
  {
    if OccursAt(a + b, |a| + j, p) {
      forall m | 0 <= m < |p| ensures b[j + m] == p[m] {
        assert (a + b)[|a| + j + m] == p[m];
      }
    }
  }

  /** `indexOf(p, from)`: the first index at or after `from` at which `p`
      occurs in `s`, if any (see IndexFromIsFirst for the characterisation). */
  function IndexFrom(s: string, p: string, from: nat): (r: Option<nat>)
    requires from <= |s|
    ensures r.Some? ==> from <= r.value && r.value + |p| <= |s|
    decreases |s| - from
  {
    if |s| < from + |p| then None
    else if OccursAt(s, from, p) then Some(from)
    else IndexFrom(s, p, from + 1)
  }

  /** IndexFrom finds an occurrence, the first one from `from` on, and finds
      none only when there is none. */
  lemma {:induction false} IndexFromIsFirst(s: string, p: string, from: nat)
    requires from <= |s|
    ensures IndexFrom(s, p, from).Some? ==> OccursAt(s, IndexFrom(s, p, from).value, p)
    ensures IndexFrom(s, p, from).Some? ==>
              forall j :: from <= j < IndexFrom(s, p, from).value ==> !OccursAt(s, j, p)
    ensures IndexFrom(s, p, from).None? <==> forall j :: from <= j ==> !OccursAt(s, j, p)
    decreases |s| - from
  {
    if from + |p| <= |s| && !OccursAt(s, from, p) {
      IndexFromIsFirst(s, p, from + 1);
    }
  }

  /** `indexOf(p)`: the search from the start. */
  function IndexOf(s: string, p: string): Option<nat> {
    IndexFrom(s, p, 0)
  }

  lemma IndexOfIsFirst(s: string, p: string)
    ensures IndexOf(s, p).Some? ==> OccursAt(s, IndexOf(s, p).value, p)
    ensures IndexOf(s, p).Some? ==> forall j :: 0 <= j < IndexOf(s, p).value ==> !OccursAt(s, j, p)
    ensures IndexOf(s, p).None? <==> forall j :: !OccursAt(s, j, p)
  {
    IndexFromIsFirst(s, p, 0);
  }

  /** An occurrence at or after `from` with none between is what IndexFrom
      returns. */
  lemma IndexFromAt(s: string, p: string, from: nat, i: nat)
    requires from <= i && OccursAt(s, i, p)
    requires forall j :: from <= j < i ==> !OccursAt(s, j, p)
    ensures IndexFrom(s, p, from) == Some(i)
  {
    IndexFromIsFirst(s, p, from);
  }

  /** An occurrence with none before it is what IndexOf returns. */
  lemma IndexOfAt(s: string, p: string, i: nat)
    requires OccursAt(s, i, p)
    requires forall j :: 0 <= j < i ==> !OccursAt(s, j, p)
    ensures IndexOf(s, p) == Some(i)
  {
    IndexFromAt(s, p, 0, i);
  }

  /** `includes`. */
  predicate Contains(s: string, p: string) {
    IndexOf(s, p).Some?
  }

  lemma ContainsIff(s: string, p: string)
    ensures Contains(s, p) <==> exists j :: OccursAt(s, j, p)
  {
    IndexOfIsFirst(s, p);
  }

  /** The first occurrence of `pat`, replaced by `rep` verbatim:
      `String.prototype.replace` with a string pattern and either a callback
      returning `rep` or a replacement string without `$`. */
  function ReplaceFirst(s: string, pat: string, rep: string): string {
    match IndexOf(s, pat)
    case None => s
    case Some(i) => s[..i] + rep + s[i + |pat|..]
  }

  /** What the replacement pattern `$c` inserts: `$$` a dollar sign, `$&` the
      match, `` $` `` the text before it, `$'` the text after it. */
  function PatternText(c: char, matched: string, before: string, after: string): string {
    if c == '$' then "$" else if c == '&' then matched else if c == '`' then before else after
  }

  /** The text a replacement string stands for. A string pattern has no
      captures, so `$1` or `$<` stay as they are, like any other `$` that
      starts none of the four patterns. */
  function Substitute(rep: string, matched: string, before: string, after: string): string
    decreases |rep|
  {
    if rep == [] then []
    else if rep[0] == '$' && |rep| >= 2 && rep[1] in "$&`'" then
      PatternText(rep[1], matched, before, after) + Substitute(rep[2..], matched, before, after)
    else [rep[0]] + Substitute(rep[1..], matched, before, after)
  }

  /** `s.replace(pat, rep)` with a string pattern and a replacement string:
      the first occurrence replaced by `rep` with its `$` patterns expanded. */
  function ReplaceFirstJs(s: string, pat: string, rep: string): string {
    match IndexOf(s, pat)
    case None => s
    case Some(i) => s[..i] + Substitute(rep, pat, s[..i], s[i + |pat|..]) + s[i + |pat|..]
  }

  /** A replacement without a dollar sign stands for itself. */
  lemma {:induction false} SubstituteWithoutDollar(rep: string, matched: string, before: string, after: string)
    requires '$' !in rep
    ensures Substitute(rep, matched, before, after) == rep
    decreases |rep|
  {
    if rep != [] {
      assert '$' !in rep[1..];
      SubstituteWithoutDollar(rep[1..], matched, before, after);
    }
  }

  /** Text without a dollar sign is copied through ahead of what follows. */
  lemma {:induction false} SubstitutePlainPrefix(a: string, rest: string, matched: string, before: string, after: string)
    requires '$' !in a
    ensures Substitute(a + rest, matched, before, after) == a + Substitute(rest, matched, before, after)
    decreases |a|
  {
    if a != [] {
      assert (a + rest)[0] == a[0] && (a + rest)[1..] == a[1..] + rest;
      assert '$' !in a[1..];
      SubstitutePlainPrefix(a[1..], rest, matched, before, after);
      assert a == [a[0]] + a[1..];
    } else {
      assert a + rest == rest;
    }
  }

  /** A doubled dollar sign collapses into one. */
  lemma SubstituteDollarDollar(rest: string, matched: string, before: string, after: string)
    ensures Substitute("$$" + rest, matched, before, after) == "$" + Substitute(rest, matched, before, after)
  {
    assert ("$$" + rest)[2..] == rest;
  }

  /** Display math `$$x$$` given as a replacement string comes out as `$x$`. */
  lemma SubstituteDisplayMath(x: string, matched: string, before: string, after: string)
    requires '$' !in x
    ensures Substitute("$$" + x + "$$", matched, before, after) == "$" + x + "$"
  {
    SubstituteDollarDollar(x + "$$", matched, before, after);
    assert "$$" + x + "$$" == "$$" + (x + "$$");
    SubstitutePlainPrefix(x, "$$", matched, before, after);
    SubstituteDollarDollar([], matched, before, after);
    assert "$$" + [] == "$$";
  }

  /** A text that is exactly the pattern is replaced as a whole, with nothing
      before or after the match. */
  lemma ReplaceWhole(p: string, rep: string)
    requires IndexOf(p, p) == Some(0)
    ensures ReplaceFirst(p, p, rep) == rep
    ensures ReplaceFirstJs(p, p, rep) == Substitute(rep, p, [], [])
  {
    var none: string := [];
    assert p[..0] == none && p[0 + |p|..] == none;
    var sub := Substitute(rep, p, none, none);
    assert ReplaceFirstJs(p, p, rep) == none + sub + none;
    assert ReplaceFirst(p, p, rep) == none + rep + none;
  }

  /** Without a dollar sign in the replacement, the two forms of `replace`
      agree. */
  lemma ReplaceFirstJsWithoutDollar(s: string, pat: string, rep: string)
    requires '$' !in rep
    ensures ReplaceFirstJs(s, pat, rep) == ReplaceFirst(s, pat, rep)
  {
    if IndexOf(s, pat).Some? {
      var i := IndexOf(s, pat).value;
      SubstituteWithoutDollar(rep, pat, s[..i], s[i + |pat|..]);
    }
  }

  lemma Assoc2(a: string, b: string, c: string)
    ensures a + (b + c) == a + b + c
  {
  }

  /** Appending three pieces one after the other appends their concatenation. */
  lemma Assoc(a: string, b: string, c: string, d: string)
    ensures a + (b + c + d) == a + b + c + d
  {
  }

  /** The strings `f` gives for the elements of `xs`, concatenated in order:
      what a loop doing `result += f(x)` over `xs` builds. */
  function ConcatMap<T>(xs: seq<T>, f: T -> string): string
    decreases |xs|
  {
    if xs == [] then [] else ConcatMap(xs[..|xs| - 1], f) + f(xs[|xs| - 1])
  }

  lemma {:induction false} ConcatMapAppend<T>(a: seq<T>, b: seq<T>, f: T -> string)
    ensures ConcatMap(a + b, f) == ConcatMap(a, f) + ConcatMap(b, f)
    decreases |b|
  {
    if b == [] {
      assert a + b == a;
    } else {
      var b' := b[..|b| - 1];
      assert (a + b)[..|a + b| - 1] == a + b';
      ConcatMapAppend(a, b', f);
    }
  }

  lemma ConcatMapOne<T>(x: T, f: T -> string)
    ensures ConcatMap([x], f) == f(x)
  {
    assert [x][..0] == [];
  }

  lemma ConcatMapTwo<T>(x: T, y: T, f: T -> string)
    ensures ConcatMap([x, y], f) == f(x) + f(y)
  {
    assert [x, y][..1] == [x];
    ConcatMapOne(x, f);
  }

  /** The piece an element contributes sits between the pieces of the
      elements before it and those after it. */
  lemma ConcatMapAt<T>(xs: seq<T>, f: T -> string, i: nat)
    requires i < |xs|
    ensures ConcatMap(xs, f) == ConcatMap(xs[..i], f) + f(xs[i]) + ConcatMap(xs[i + 1..], f)
  {
    Around(xs, i);
    ConcatMapSplit(xs[..i], xs[i], xs[i + 1..], f);
  }

  /** A sequence is what comes before an element, the element, and what
      comes after it. */
  lemma Around<T>(xs: seq<T>, i: nat)
    requires i < |xs|
    ensures xs[..i] + [xs[i]] + xs[i + 1..] == xs
  {
  }

  lemma ConcatMapSplit<T>(before: seq<T>, x: T, after: seq<T>, f: T -> string)
    ensures ConcatMap(before + [x] + after, f) == ConcatMap(before, f) + f(x) + ConcatMap(after, f)
  {
    ConcatMapAppend(before + [x], after, f);
    ConcatMapAppend(before, [x], f);
    ConcatMapOne(x, f);
  }

  /** One more element appends its piece. */
  lemma ConcatMapSnoc<T>(xs: seq<T>, f: T -> string, i: nat)
    requires i < |xs|
    ensures ConcatMap(xs[..i + 1], f) == ConcatMap(xs[..i], f) + f(xs[i])
  {
    assert xs[..i + 1][..i] == xs[..i];
  }

  /** Two maps that agree on the elements give the same concatenation. */
  lemma {:induction false} ConcatMapAgree<T>(xs: seq<T>, f: T -> string, g: T -> string)
    requires forall i :: 0 <= i < |xs| ==> f(xs[i]) == g(xs[i])
    ensures ConcatMap(xs, f) == ConcatMap(xs, g)
    decreases |xs|
  {
    if xs != [] {
      ConcatMapAgree(xs[..|xs| - 1], f, g);
    }
  }

  /** `xs.filter(keep)`. */
  function Filter<T>(xs: seq<T>, keep: T -> bool): (r: seq<T>)
    ensures forall i :: 0 <= i < |r| ==> keep(r[i])
    ensures |r| <= |xs|
    decreases |xs|
  {
    if xs == [] then []
    else if keep(xs[|xs| - 1]) then Filter(xs[..|xs| - 1], keep) + [xs[|xs| - 1]]
    else Filter(xs[..|xs| - 1], keep)
  }

  /** An element survives the filter exactly when it is in the input and kept. */
  lemma {:induction false} FilterMember<T>(xs: seq<T>, keep: T -> bool, x: T)
    ensures x in Filter(xs, keep) <==> x in xs && keep(x)
    decreases |xs|
  {
    if xs != [] {
      var init := xs[..|xs| - 1];
      FilterMember(init, keep, x);
      assert xs == init + [xs[|xs| - 1]];
    }
  }

  /** A filter that keeps every element changes nothing. */
  lemma {:induction false} FilterKeepsAll<T>(xs: seq<T>, keep: T -> bool)
    requires forall i :: 0 <= i < |xs| ==> keep(xs[i])
    ensures Filter(xs, keep) == xs
    decreases |xs|
  {
    if xs != [] {
      FilterKeepsAll(xs[..|xs| - 1], keep);
    }
  }

  lemma {:induction false} FilterAppend<T>(a: seq<T>, b: seq<T>, keep: T -> bool)
    ensures Filter(a + b, keep) == Filter(a, keep) + Filter(b, keep)
    decreases |b|
  {
    if b == [] {
      assert a + b == a;
    } else {
      var b' := b[..|b| - 1];
      assert (a + b)[..|a + b| - 1] == a + b';
      FilterAppend(a, b', keep);
    }
  }

  /** `join(sep)`: the parts with `sep` between neighbours. */
  function Join(parts: seq<string>, sep: string): string
    decreases |parts|
  {
    if |parts| == 0 then ""
    else if |parts| == 1 then parts[0]
    else parts[0] + sep + Join(parts[1..], sep)
  }

  lemma {:induction false} JoinAppend(parts: seq<string>, last: string, sep: string)
    requires parts != []
    ensures Join(parts + [last], sep) == Join(parts, sep) + sep + last
    decreases |parts|
  {
    if |parts| == 1 {
      assert parts + [last] == [parts[0], last];
    } else {
      assert (parts + [last])[1..] == parts[1..] + [last];
      JoinAppend(parts[1..], last, sep);
    }
  }

  /** `split(sep)` for a one-character separator. */
  function Split(s: string, sep: char): (r: seq<string>)
    ensures |r| >= 1
    decreases |s|
  {
    if s == [] then [""]
    else
      var rest := Split(s[1..], sep);
      if s[0] == sep then [""] + rest
      else [[s[0]] + rest[0]] + rest[1..]
  }

  /** No piece holds the separator, and joining the pieces back with it gives
      the input. */
  lemma {:induction false} SplitSpec(s: string, sep: char)
    ensures forall i :: 0 <= i < |Split(s, sep)| ==> sep !in Split(s, sep)[i]
    ensures Join(Split(s, sep), [sep]) == s
    decreases |s|
  {
    if s != [] {
      var rest := Split(s[1..], sep);
      SplitSpec(s[1..], sep);
      if s[0] == sep {
        assert Join([""] + rest, [sep]) == [sep] + Join(rest, [sep]);
      } else {
        var r := [[s[0]] + rest[0]] + rest[1..];
        assert Split(s, sep) == r;
        if |rest| > 1 {
          assert r[1..] == rest[1..];
          assert Join(rest, [sep]) == rest[0] + [sep] + Join(rest[1..], [sep]);
        }
        forall i | 0 <= i < |r| ensures sep !in r[i] {
          if i > 0 {
            assert r[i] == rest[i];
          }
        }
      }
    }
  }

  /** A string without the separator splits into itself alone. */
  lemma {:induction false} SplitWithoutSeparator(s: string, sep: char)
    requires sep !in s
    ensures Split(s, sep) == [s]
    decreases |s|
  {
    if s != [] {
      SplitWithoutSeparator(s[1..], sep);
      assert [s[0]] + s[1..] == s;
    }
  }

  /** Splitting distributes over a separator placed between two strings. */
  lemma {:induction false} SplitAtSeparator(x: string, y: string, sep: char)
    ensures Split(x + [sep] + y, sep) == Split(x, sep) + Split(y, sep)
    decreases |x|
  {
    var s := x + [sep] + y;
    if x == [] {
      assert s[1..] == y;
    } else {
      assert s[1..] == x[1..] + [sep] + y;
      SplitAtSeparator(x[1..], y, sep);
    }
  }

  /** The first piece of `split` is the text up to the first separator, or
      the whole text when there is none. */
  lemma {:induction false} SplitFirst(s: string, sep: char)
    ensures var first := Split(s, sep)[0];
            && |first| <= |s|
            && first == s[..|first|]
            && (|first| == |s| || s[|first|] == sep)
    decreases |s|
  {
    if s != [] && s[0] != sep {
      var rest := Split(s[1..], sep);
      SplitFirst(s[1..], sep);
      var first := [s[0]] + rest[0];
      assert Split(s, sep)[0] == first;
      assert s[..|first|] == [s[0]] + s[1..][..|rest[0]|];
      assert |first| < |s| ==> s[|first|] == s[1..][|rest[0]|];
    }
  }

  /** `split` yields more than one piece exactly when the separator occurs. */
  lemma SplitSeveralIff(s: string, sep: char)
    ensures |Split(s, sep)| > 1 <==> sep in s
  {
    SplitSpec(s, sep);
    if sep !in s {
      SplitWithoutSeparator(s, sep);
    }
  }

  /** The `[k]` element of `split(sep)`, or None where JavaScript yields `undefined`. */
  function SplitPart(s: string, sep: char, k: nat): (r: Option<string>)
    ensures r.Some? <==> k < |Split(s, sep)|
    ensures r.Some? ==> sep !in r.value
  {
    var parts := Split(s, sep);
    SplitSpec(s, sep);
    if k < |parts| then Some(parts[k]) else None
  }

  function DigitChar(d: nat): (c: char)
    requires d < 10
    ensures '0' <= c <= '9'
  {
    ('0' as int + d) as char
  }

  /** Decimal rendering of a natural number, as `String(n)` prints it. */
  function NatToString(n: nat): (r: string)
    ensures r != []
  {
    if n < 10 then [DigitChar(n)] else NatToString(n / 10) + [DigitChar(n % 10)]
  }

  predicate AllDigits(s: string) {
    forall i :: 0 <= i < |s| ==> '0' <= s[i] <= '9'
  }

  /** The rendering is all digits, without a leading zero unless it is "0". */
  lemma {:induction false} NatToStringDigits(n: nat)
    ensures AllDigits(NatToString(n))
    ensures NatToString(n)[0] == '0' ==> n == 0
  {
    if n >= 10 {
      NatToStringDigits(n / 10);
    }
  }

  /** The value of a string of decimal digits; the inverse of NatToString. */
  function DecimalValue(s: string): nat
    requires AllDigits(s)
  {
    if s == [] then 0
    else DecimalValue(s[..|s| - 1]) * 10 + (s[|s| - 1] as int - '0' as int)
  }

  lemma {:induction false} DecimalRoundTrip(n: nat)
    ensures AllDigits(NatToString(n)) && DecimalValue(NatToString(n)) == n
  {
    NatToStringDigits(n);
    if n >= 10 {
      var r := NatToString(n);
      assert r[..|r| - 1] == NatToString(n / 10);
      DecimalRoundTrip(n / 10);
    }
  }

  /** `String(i)` for an integer. */
  function IntToString(i: int): (r: string)
    ensures r != []
    ensures i < 0 <==> r[0] == '-'
  {
    if i < 0 then "-" + NatToString(-i)
    else
      NatToStringDigits(i);
      NatToString(i)
  }

  /** The replacement table of the client's `escapeHTML`. As written, every one
      of the five characters it matches is mapped to itself. */
  function EscapeEntity(c: char): string {
    match c
    case '&' => "&"
    case '<' => "<"
    case '>' => ">"
    case '\'' => "'"
    case '"' => "\""
    case _ => [c]
  }

  /** `escapeHTML(str)`: every character through the table (an empty or
      missing string gives the empty string). */
  function EscapeHtml(s: string): string
    decreases |s|
  {
    if s == [] then "" else EscapeEntity(s[0]) + EscapeHtml(s[1..])
  }

  /** With the table as written, escaping changes nothing. */
  lemma {:induction false} EscapeHtmlIsIdentity(s: string)
    ensures EscapeHtml(s) == s
    decreases |s|
  {
    if s != [] {
      EscapeHtmlIsIdentity(s[1..]);
      assert s == [s[0]] + s[1..];
    }
  }
}

=== FILE: ThinkTags.dfy ===
/**
  Think-block extraction and re-insertion (`processThinkTagsInMarkdown` and
  `renderThinkBlocksHTML`, js/script.js:246-290).

  Every `<think>...</think>` span of the raw markdown is matched non-greedily
  (each opening tag pairs with the first closing tag after it), replaced by the
  sentinel `%%THINK_BLOCK_ID_<n>%%`, and its inner text recorded as a block whose
  id comes from a counter that starts at 0 on every call. The tags and the
  sentinel's two halves are gathered in a `Syntax` value so that the proofs
  below hold for any tags with the properties they need; THINK is the one the
  client uses.
*/
module ThinkTags {
  import opened Strings

  /** The opening and closing tags and the placeholder's prefix and suffix. */
  datatype Syntax = Syntax(open: string, close: string, prefix: string, suffix: string)

  const THINK := Syntax("<think>", "</think>", "%%THINK_BLOCK_ID_", "%%")

  datatype ThinkBlock = ThinkBlock(id: nat, content: string)

  /** The `{ processedMarkdown, thinkBlocks }` pair the source returns. */
  datatype Extraction = Extraction(processed: string, blocks: seq<ThinkBlock>)

  /** Start of an opening tag and start of the closing tag that ends its span. */
  datatype Span = Span(open: nat, close: nat)

  /** `p` shifted right by `d` disagrees with itself somewhere. */
  predicate ShiftDiffers(p: string, d: nat) {
    exists i :: 0 <= i < |p| - d && p[d + i] != p[i]
  }

  /** No proper suffix of `p` is also a prefix of it: two occurrences of `p`
      can never overlap. */
  predicate NoBorder(p: string) {
    forall d :: 0 < d < |p| ==> ShiftDiffers(p, d)
  }

  /** What the proofs need of a syntax: non-empty tags (so every match consumes
      text and a closing tag is something to look for) and a non-empty,
      self-overlap-free placeholder prefix. */
  predicate ValidSyntax(syn: Syntax) {
    syn.open != [] && syn.close != [] && syn.prefix != [] && NoBorder(syn.prefix)
  }

  /** The client's syntax has these properties: after "%%", the prefix holds no
      '%' at all. */
  lemma ThinkSyntaxValid()
    ensures ValidSyntax(THINK)
  {
    var p := THINK.prefix;
    forall d | 0 < d < |p| ensures ShiftDiffers(p, d) {
      if d == 1 {
        assert p[d + 1] != p[1];
      } else {
        assert p[d + 0] != p[0];
      }
    }
  }

  /** `THINK_TAG_PLACEHOLDER_PREFIX + blockId + THINK_TAG_PLACEHOLDER_SUFFIX`. */
  function Placeholder(syn: Syntax, id: nat): string {
    syn.prefix + NatToString(id) + syn.suffix
  }

  /** The span as it stood in the raw text. */
  function Wrap(syn: Syntax, content: string): string {
    syn.open + content + syn.close
  }

  /** From `pos` on, some opening tag is followed, after its end, by a closing
      tag: a complete pair. */
  ghost predicate HasPair(syn: Syntax, s: string, pos: nat) {
    exists o, c :: pos <= o && OccursAt(s, o, syn.open) && o + |syn.open| <= c && OccursAt(s, c, syn.close)
  }

  /** The text never contains the placeholder prefix. */
  ghost predicate NoSentinel(syn: Syntax, s: string) {
    forall j :: !OccursAt(s, j, syn.prefix)
  }

  /** The leftmost match of `/<think>([\s\S]*?)<\/think>/` at or after `pos` (the
      global regex's `lastIndex`): the first opening tag, and the first closing
      tag that starts after that tag ends. */
  function FindSpan(syn: Syntax, s: string, pos: nat): (r: Option<Span>)
    requires pos <= |s|
    ensures r.Some? ==> pos <= r.value.open && r.value.open + |syn.open| <= r.value.close
    ensures r.Some? ==> r.value.close + |syn.close| <= |s|
  {
    match IndexFrom(s, syn.open, pos)
    case None => None
    case Some(o) =>
      match IndexFrom(s, syn.close, o + |syn.open|)
      case None => None
      case Some(c) => Some(Span(o, c))
  }

  /** The span FindSpan reports starts with an opening tag and ends with a
      closing tag. */
  lemma SpanTags(syn: Syntax, s: string, pos: nat)
    requires pos <= |s|
    ensures FindSpan(syn, s, pos).Some? ==>
      && OccursAt(s, FindSpan(syn, s, pos).value.open, syn.open)
      && OccursAt(s, FindSpan(syn, s, pos).value.close, syn.close)
  {
    IndexFromIsFirst(s, syn.open, pos);
    match IndexFrom(s, syn.open, pos)
    case None =>
    case Some(o) =>
      IndexFromIsFirst(s, syn.close, o + |syn.open|);
  }

  /** The match FindSpan picks is the leftmost one, its closing tag the first
      after the opening tag, and there is none exactly when no pair exists. */
  lemma FindSpanIsLeftmost(syn: Syntax, s: string, pos: nat)
    requires pos <= |s|
    ensures FindSpan(syn, s, pos).Some? ==>
      var sp := FindSpan(syn, s, pos).value;
      && (forall j :: pos <= j < sp.open ==> !OccursAt(s, j, syn.open))
      && (forall j :: sp.open + |syn.open| <= j < sp.close ==> !OccursAt(s, j, syn.close))
    ensures FindSpan(syn, s, pos).None? <==> !HasPair(syn, s, pos)
  {
    SpanTags(syn, s, pos);
    IndexFromIsFirst(s, syn.open, pos);
    match IndexFrom(s, syn.open, pos)
    case None =>
    case Some(o) =>
      IndexFromIsFirst(s, syn.close, o + |syn.open|);
  }

  /** The global `replace` with its callback, from `pos` on: blocks are numbered
      from `firstId` in order of appearance; the processed text keeps everything
      outside the spans and puts a placeholder where each span was. */
  function Extract(syn: Syntax, s: string, pos: nat, firstId: nat): Extraction
    requires syn.open != [] && pos <= |s|
    decreases |s| - pos
  {
    match FindSpan(syn, s, pos)
    case None => Extraction(s[pos..], [])
    case Some(sp) =>
      var rest := Extract(syn, s, sp.close + |syn.close|, firstId + 1);
      Extraction(s[pos..sp.open] + Placeholder(syn, firstId) + rest.processed,
                 [ThinkBlock(firstId, s[sp.open + |syn.open|..sp.close])] + rest.blocks)
  }

  /** `processThinkTagsInMarkdown`: the replace callback bumps a counter that
      starts at 0 for every call and pushes one block per match. */
  function ProcessThinkTagsInMarkdown(markdown: string): Extraction {
    Extract(THINK, markdown, 0, 0)
  }

  /** The blocks from `pos` on: the span's block, then the blocks after it. */
  lemma ExtractBlocks(syn: Syntax, s: string, pos: nat, k: nat, sp: Span, next: nat)
    requires syn.open != [] && pos <= |s| && FindSpan(syn, s, pos) == Some(sp)
    requires next == sp.close + |syn.close|
    ensures Extract(syn, s, pos, k).blocks == [ThinkBlock(k, s[sp.open + |syn.open|..sp.close])] + Extract(syn, s, next, k + 1).blocks
  {
    ExtractUnfold(syn, s, pos, k, sp, next);
  }

  /** One step of the replacement: the text before the span, the span's
      placeholder, and what the rest of the text becomes. */
  lemma ExtractUnfold(syn: Syntax, s: string, pos: nat, k: nat, sp: Span, next: nat)
    requires syn.open != [] && pos <= |s| && FindSpan(syn, s, pos) == Some(sp)
    requires next == sp.close + |syn.close|
    ensures var rest := Extract(syn, s, next, k + 1);
            Extract(syn, s, pos, k)
              == Extraction(s[pos..sp.open] + Placeholder(syn, k) + rest.processed,
                            [ThinkBlock(k, s[sp.open + |syn.open|..sp.close])] + rest.blocks)
  {
    var rest := Extract(syn, s, next, k + 1);
    var piece := s[pos..sp.open] + Placeholder(syn, k) + rest.processed;
    var block := ThinkBlock(k, s[sp.open + |syn.open|..sp.close]);
    assert Extract(syn, s, pos, k) == Extraction(piece, [block] + rest.blocks);
  }

  lemma ExtractNone(syn: Syntax, s: string, pos: nat, k: nat)
    requires syn.open != [] && pos <= |s| && FindSpan(syn, s, pos).None?
    ensures Extract(syn, s, pos, k) == Extraction(s[pos..], [])
  {
  }

  /** Ids run `k`, `k + 1`, ... in order. */
  predicate NumberedFrom(blocks: seq<ThinkBlock>, k: nat) {
    forall i :: 0 <= i < |blocks| ==> blocks[i].id == k + i
  }

  lemma NumberedCons(blocks: seq<ThinkBlock>, b: ThinkBlock, rest: seq<ThinkBlock>, k: nat)
    requires blocks == [b] + rest && b.id == k && NumberedFrom(rest, k + 1)
    ensures NumberedFrom(blocks, k)
  {
    forall i | 0 < i < |blocks| ensures blocks[i] == rest[i - 1] {
    }
  }

  /** Blocks are numbered consecutively from the counter's starting value. */
  lemma {:induction false} ExtractIds(syn: Syntax, s: string, pos: nat, k: nat)
    requires syn.open != [] && pos <= |s|
    ensures NumberedFrom(Extract(syn, s, pos, k).blocks, k)
    decreases |s| - pos
  {
    if FindSpan(syn, s, pos).Some? {
      var sp := FindSpan(syn, s, pos).value;
      var next := sp.close + |syn.close|;
      ExtractBlocks(syn, s, pos, k, sp, next);
      ExtractIds(syn, s, next, k + 1);
      NumberedCons(Extract(syn, s, pos, k).blocks, ThinkBlock(k, s[sp.open + |syn.open|..sp.close]),
                   Extract(syn, s, next, k + 1).blocks, k);
    }
  }

  /** Text without a complete pair (an unclosed `<think>` mid-stream, say) comes
      back unchanged with no blocks, and only such text does. */
  lemma NoPairUnchanged(syn: Syntax, s: string, pos: nat, k: nat)
    requires syn.open != [] && pos <= |s|
    ensures Extract(syn, s, pos, k).blocks == [] <==> !HasPair(syn, s, pos)
    ensures !HasPair(syn, s, pos) ==> Extract(syn, s, pos, k) == Extraction(s[pos..], [])
  {
    FindSpanIsLeftmost(syn, s, pos);
    if FindSpan(syn, s, pos).Some? {
      var sp := FindSpan(syn, s, pos).value;
      ExtractBlocks(syn, s, pos, k, sp, sp.close + |syn.close|);
    }
  }

  lemma OccursInSlice(s: string, a: nat, b: nat, j: int, p: string)
    requires a <= b <= |s|
    requires OccursAt(s[a..b], j, p)
    ensures OccursAt(s, a + j, p) && a + j + |p| <= b
  {
    forall i | 0 <= i < |p| ensures s[a + j + i] == p[i] {
      assert s[a..b][j + i] == p[i];
    }
  }

  /** The inner text of the leftmost span holds no closing tag. */
  lemma SpanContentHasNoCloseTag(syn: Syntax, s: string, pos: nat, sp: Span)
    requires syn.close != [] && pos <= |s| && FindSpan(syn, s, pos) == Some(sp)
    ensures !Contains(s[sp.open + |syn.open|..sp.close], syn.close)
  {
    var content := s[sp.open + |syn.open|..sp.close];
    FindSpanIsLeftmost(syn, s, pos);
    ContainsIff(content, syn.close);
    forall j | OccursAt(content, j, syn.close) ensures false {
      OccursInSlice(s, sp.open + |syn.open|, sp.close, j, syn.close);
    }
  }

  /** No block's content contains `tag`. */
  predicate NoneContains(blocks: seq<ThinkBlock>, tag: string) {
    forall i :: 0 <= i < |blocks| ==> !Contains(blocks[i].content, tag)
  }

  lemma NoneContainsCons(blocks: seq<ThinkBlock>, b: ThinkBlock, rest: seq<ThinkBlock>, tag: string)
    requires blocks == [b] + rest && !Contains(b.content, tag) && NoneContains(rest, tag)
    ensures NoneContains(blocks, tag)
  {
    forall i | 0 < i < |blocks| ensures blocks[i] == rest[i - 1] {
    }
  }

  /** No block holds a closing tag: the lazy `([\s\S]*?)` stops at the first one. */
  lemma {:induction false} BlocksHaveNoCloseTag(syn: Syntax, s: string, pos: nat, k: nat)
    requires syn.open != [] && syn.close != [] && pos <= |s|
    ensures NoneContains(Extract(syn, s, pos, k).blocks, syn.close)
    decreases |s| - pos
  {
    if FindSpan(syn, s, pos).Some? {
      var sp := FindSpan(syn, s, pos).value;
      var next := sp.close + |syn.close|;
      ExtractBlocks(syn, s, pos, k, sp, next);
      SpanContentHasNoCloseTag(syn, s, pos, sp);
      BlocksHaveNoCloseTag(syn, s, next, k + 1);
      NoneContainsCons(Extract(syn, s, pos, k).blocks, ThinkBlock(k, s[sp.open + |syn.open|..sp.close]),
                       Extract(syn, s, next, k + 1).blocks, syn.close);
    }
  }

  /** The re-insertion pass as intended: block by block, the first occurrence
      of the block's placeholder is replaced by `widget(block)` verbatim. */
  function Restore(syn: Syntax, text: string, blocks: seq<ThinkBlock>, widget: ThinkBlock -> string): string
    decreases |blocks|
  {
    if blocks == [] then text
    else Restore(syn, ReplaceFirst(text, Placeholder(syn, blocks[0].id), widget(blocks[0])), blocks[1..], widget)
  }

  /** The re-insertion pass of `renderThinkBlocksHTML` as written: the widget's
      HTML is passed to `replace` as a replacement string, so its `$` patterns
      are expanded. */
  function RestoreAsWritten(syn: Syntax, text: string, blocks: seq<ThinkBlock>, widget: ThinkBlock -> string): string
    decreases |blocks|
  {
    if blocks == [] then text
    else RestoreAsWritten(syn, ReplaceFirstJs(text, Placeholder(syn, blocks[0].id), widget(blocks[0])), blocks[1..], widget)
  }

  const ACCORDION_CLOSE := "</div>"

  function AccordionOpen(wrapperId: string): string {
    "<div class=\"accordion\" id=\"" + wrapperId + "\">"
  }

  /** `renderThinkBlocksHTML` on the rendered HTML: nothing happens without
      blocks; otherwise the HTML is wrapped in one accordion (its id, built from
      the clock, is a parameter) and every placeholder is replaced, in block
      order, by the widget the block renders to, `$` patterns expanded. */
  method RenderThinkBlocksHtml(html: string, thinkBlocks: seq<ThinkBlock>, wrapperId: string,
                               widget: ThinkBlock -> string) returns (out: string)
    ensures thinkBlocks == [] ==> out == html
    ensures thinkBlocks != [] ==>
              out == RestoreAsWritten(THINK, AccordionOpen(wrapperId) + html + ACCORDION_CLOSE, thinkBlocks, widget)
  {
    if thinkBlocks == [] {
      return html;
    }
    out := AccordionOpen(wrapperId) + html + ACCORDION_CLOSE;
    ghost var start := out;
    for i := 0 to |thinkBlocks|
      invariant RestoreAsWritten(THINK, out, thinkBlocks[i..], widget) == RestoreAsWritten(THINK, start, thinkBlocks, widget)
    {
      var block := thinkBlocks[i];
      var placeholder := Placeholder(THINK, block.id);
      assert thinkBlocks[i..][1..] == thinkBlocks[i + 1..];
      out := ReplaceFirstJs(out, placeholder, widget(block));
    }
  }

  /** Widgets without a dollar sign are put back verbatim even as written. */
  lemma {:induction false} RestoreAsWrittenWithoutDollar(syn: Syntax, text: string, blocks: seq<ThinkBlock>,
                                                         widget: ThinkBlock -> string)
    requires forall i :: 0 <= i < |blocks| ==> '$' !in widget(blocks[i])
    ensures RestoreAsWritten(syn, text, blocks, widget) == Restore(syn, text, blocks, widget)
    decreases |blocks|
  {
    if blocks != [] {
      var b := blocks[0];
      ReplaceFirstJsWithoutDollar(text, Placeholder(syn, b.id), widget(b));
      var next := ReplaceFirst(text, Placeholder(syn, b.id), widget(b));
      forall i | 0 <= i < |blocks[1..]| ensures '$' !in widget(blocks[1..][i]) {
        assert blocks[1..][i] == blocks[i + 1];
      }
      RestoreAsWrittenWithoutDollar(syn, next, blocks[1..], widget);
    }
  }

  /** As written, a widget holding display math `$$…$$` shows inline math
      `$…$`: the placeholder is not replaced by the widget's text. */
  lemma DollarWidgetCollapses(content: string)
    requires '$' !in content
    ensures var widget := (b: ThinkBlock) => "$$" + b.content + "$$";
            var text := Placeholder(THINK, 0);
            && RestoreAsWritten(THINK, text, [ThinkBlock(0, content)], widget) == "$" + content + "$"
            && Restore(THINK, text, [ThinkBlock(0, content)], widget) == "$$" + content + "$$"
  {
    var widget := (b: ThinkBlock) => "$$" + b.content + "$$";
    var p := Placeholder(THINK, 0);
    var block := ThinkBlock(0, content);
    ThinkSyntaxValid();
    FirstPlaceholder(THINK, "", 0, "");
    assert "" + p + "" == p;
    ReplaceWhole(p, widget(block));
    SubstituteDisplayMath(content, p, [], []);
    assert [block][1..] == [];
  }

  /** The widget that puts a block back as the tagged span it came from. */
  function Retag(syn: Syntax): ThinkBlock -> string {
    (block: ThinkBlock) => Wrap(syn, block.content)
  }

  lemma NoSentinelPrefix(syn: Syntax, s: string, n: nat)
    requires n <= |s| && NoSentinel(syn, s)
    ensures NoSentinel(syn, s[..n])
  {
    forall j ensures !OccursAt(s[..n], j, syn.prefix) {
      if 0 <= j && j + |syn.prefix| <= n {
        assert s[..n] + s[n..] == s;
        OccursAtPrefix(s[..n], s[n..], j, syn.prefix);
      }
    }
  }

  /** An occurrence of a border-free `p` cannot begin inside text free of `p`
      and run into an occurrence of `p` that follows that text. */
  lemma NoOccurrenceAcrossBoundary(p: string, x: string, tail: string, j: int)
    requires NoBorder(p) && StartsWith(tail, p) && 0 <= j < |x|
    requires forall i :: !OccursAt(x, i, p)
    ensures !OccursAt(x + tail, j, p)
  {
    if j + |p| <= |x| {
      OccursAtPrefix(x, tail, j, p);
    } else {
      var d := |x| - j;
      assert ShiftDiffers(p, d);
      var i :| 0 <= i < |p| - d && p[d + i] != p[i];
      assert (x + tail)[j + (d + i)] == tail[i];
    }
  }

  /** An occurrence of `p` is an occurrence of any prefix of `p`. */
  lemma OccursAtStart(t: string, j: int, p: string, q: string)
    requires StartsWith(p, q)
    ensures OccursAt(t, j, p) ==> OccursAt(t, j, q)
  {
    if OccursAt(t, j, p) {
      forall k | 0 <= k < |q| ensures t[j + k] == q[k] {
        assert t[j + k] == p[k];
      }
    }
  }

  /** In sentinel-free text followed by a placeholder, that placeholder is the
      first occurrence. */
  lemma FirstPlaceholder(syn: Syntax, x: string, id: nat, rest: string)
    requires ValidSyntax(syn) && NoSentinel(syn, x)
    ensures IndexOf(x + Placeholder(syn, id) + rest, Placeholder(syn, id)) == Some(|x|)
  {
    var p := Placeholder(syn, id);
    var t := x + p + rest;
    assert OccursAt(t, |x|, p) by {
      forall k | 0 <= k < |p| ensures t[|x| + k] == p[k] {
      }
    }
    assert StartsWith(p, syn.prefix) by {
      forall k | 0 <= k < |syn.prefix| ensures p[k] == syn.prefix[k] {
      }
    }
    OccursAtStart(p + rest, 0, p, syn.prefix);
    forall j | 0 <= j < |x| ensures !OccursAt(t, j, p) {
      NoOccurrenceAcrossBoundary(syn.prefix, x, p + rest, j);
      assert t == x + (p + rest);
      OccursAtStart(t, j, p, syn.prefix);
    }
    IndexOfAt(t, p, |x|);
  }

  /** Replacing the first occurrence of a placeholder that follows sentinel-free
      text replaces that very placeholder. */
  lemma ReplaceAfterClean(syn: Syntax, x: string, id: nat, rest: string, w: string)
    requires ValidSyntax(syn) && NoSentinel(syn, x)
    ensures ReplaceFirst(x + Placeholder(syn, id) + rest, Placeholder(syn, id), w) == x + w + rest
  {
    var t := x + Placeholder(syn, id) + rest;
    FirstPlaceholder(syn, x, id, rest);
    assert t[..|x|] == x;
    assert t[|x| + |Placeholder(syn, id)|..] == rest;
  }

  /** The text up to the end of the span is the text before it and the tagged
      span. */
  lemma SpanGlue(syn: Syntax, s: string, o: nat, c: nat)
    requires OccursAt(s, o, syn.open) && o + |syn.open| <= c && OccursAt(s, c, syn.close)
    ensures s[..o] + Wrap(syn, s[o + |syn.open|..c]) == s[..c + |syn.close|]
  {
    OccursAtSlice(s, o, syn.open);
    OccursAtSlice(s, c, syn.close);
    Glue(s, o, o + |syn.open|, c, c + |syn.close|);
  }

  /** Cutting a prefix of a string at three ordered points and gluing the
      pieces back. */
  lemma Glue(s: string, a: nat, b: nat, c: nat, d: nat)
    requires a <= b <= c <= d <= |s|
    ensures s[..a] + (s[a..b] + s[b..c] + s[c..d]) == s[..d]
  {
  }

  /** Restoring the first block replaces its placeholder. */
  lemma RestoreCons(syn: Syntax, text: string, b: ThinkBlock, rest: seq<ThinkBlock>, widget: ThinkBlock -> string)
    ensures Restore(syn, text, [b] + rest, widget)
         == Restore(syn, ReplaceFirst(text, Placeholder(syn, b.id), widget(b)), rest, widget)
  {
    assert ([b] + rest)[1..] == rest;
  }

  /** Gluing the text before `pos` to a piece that starts at `pos`. */
  lemma TakeGlue(s: string, pos: nat, o: nat, y: string, z: string)
    requires pos <= o <= |s|
    ensures s[..pos] + (s[pos..o] + y + z) == s[..o] + y + z
  {
    assert s[..pos] + s[pos..o] == s[..o];
  }

  /** The processed text from `pos` on, after the text before `pos`, is the
      text up to the span, the placeholder, and the processed rest. */
  lemma ExtractStep(syn: Syntax, s: string, pos: nat, k: nat, sp: Span, next: nat)
    requires syn.open != [] && pos <= |s| && FindSpan(syn, s, pos) == Some(sp)
    requires next == sp.close + |syn.close|
    ensures s[..pos] + Extract(syn, s, pos, k).processed == s[..sp.open] + Placeholder(syn, k) + Extract(syn, s, next, k + 1).processed
  {
    ExtractUnfold(syn, s, pos, k, sp, next);
    TakeGlue(s, pos, sp.open, Placeholder(syn, k), Extract(syn, s, next, k + 1).processed);
  }

  /** Restored as intended, the first block's widget takes the place of its
      placeholder when the placeholder follows sentinel-free text, whatever
      characters the widget holds. */
  lemma RestorePlacesWidget(syn: Syntax, x: string, b: ThinkBlock, text: string, blocks: seq<ThinkBlock>,
                            widget: ThinkBlock -> string)
    requires ValidSyntax(syn) && NoSentinel(syn, x)
    ensures Restore(syn, x + Placeholder(syn, b.id) + text, [b] + blocks, widget)
         == Restore(syn, x + widget(b) + text, blocks, widget)
  {
    RestoreCons(syn, x + Placeholder(syn, b.id) + text, b, blocks, widget);
    ReplaceAfterClean(syn, x, b.id, text, widget(b));
  }

  /** One step of the restoration, over the pieces of the extraction: the
      first block's placeholder is the first sentinel in the text, so replacing
      it puts the span back and leaves the rest to be restored after it. */
  lemma RestoreStepPieces(syn: Syntax, s: string, pos: nat, o: nat, next: nat, k: nat, content: string,
                          processed: string, blocks: seq<ThinkBlock>, restText: string, restBlocks: seq<ThinkBlock>)
    requires ValidSyntax(syn) && pos <= o <= next <= |s| && NoSentinel(syn, s[..o])
    requires s[..pos] + processed == s[..o] + Placeholder(syn, k) + restText
    requires blocks == [ThinkBlock(k, content)] + restBlocks
    requires s[..o] + Wrap(syn, content) == s[..next]
    ensures Restore(syn, s[..pos] + processed, blocks, Retag(syn)) == Restore(syn, s[..next] + restText, restBlocks, Retag(syn))
  {
    RestorePlacesWidget(syn, s[..o], ThinkBlock(k, content), restText, restBlocks, Retag(syn));
  }

  lemma RestoreStep(syn: Syntax, s: string, pos: nat, k: nat, sp: Span, next: nat)
    requires ValidSyntax(syn) && NoSentinel(syn, s) && pos <= |s| && FindSpan(syn, s, pos) == Some(sp)
    requires next == sp.close + |syn.close|
    ensures Restore(syn, s[..pos] + Extract(syn, s, pos, k).processed, Extract(syn, s, pos, k).blocks, Retag(syn))
         == Restore(syn, s[..next] + Extract(syn, s, next, k + 1).processed, Extract(syn, s, next, k + 1).blocks, Retag(syn))
  {
    ExtractStep(syn, s, pos, k, sp, next);
    ExtractBlocks(syn, s, pos, k, sp, next);
    NoSentinelPrefix(syn, s, sp.open);
    SpanTags(syn, s, pos);
    SpanGlue(syn, s, sp.open, sp.close);
    var here, rest := Extract(syn, s, pos, k), Extract(syn, s, next, k + 1);
    RestoreStepPieces(syn, s, pos, sp.open, next, k, s[sp.open + |syn.open|..sp.close],
                      here.processed, here.blocks, rest.processed, rest.blocks);
  }

  /** Without a span left, the text after `pos` is its own extraction. */
  lemma RestoreNone(syn: Syntax, s: string, pos: nat, k: nat)
    requires syn.open != [] && pos <= |s| && FindSpan(syn, s, pos).None?
    ensures Restore(syn, s[..pos] + Extract(syn, s, pos, k).processed, Extract(syn, s, pos, k).blocks, Retag(syn)) == s
  {
    assert s[..pos] + s[pos..] == s;
  }

  lemma {:induction false} RestoreExtract(syn: Syntax, s: string, pos: nat, k: nat)
    requires ValidSyntax(syn) && NoSentinel(syn, s) && pos <= |s|
    ensures Restore(syn, s[..pos] + Extract(syn, s, pos, k).processed, Extract(syn, s, pos, k).blocks, Retag(syn)) == s
    decreases |s| - pos
  {
    if FindSpan(syn, s, pos).None? {
      RestoreNone(syn, s, pos, k);
    } else {
      var sp := FindSpan(syn, s, pos).value;
      var next := sp.close + |syn.close|;
      RestoreStep(syn, s, pos, k, sp, next);
      RestoreExtract(syn, s, next, k + 1);
    }
  }

  /** Round trip for any valid syntax: extraction from the start, then
      restoration with the retagging widget, gives back sentinel-free text. */
  lemma RoundTrip(syn: Syntax, s: string)
    requires ValidSyntax(syn) && NoSentinel(syn, s)
    ensures Restore(syn, Extract(syn, s, 0, 0).processed, Extract(syn, s, 0, 0).blocks, Retag(syn)) == s
  {
    RestoreExtract(syn, s, 0, 0);
    assert s[..0] + Extract(syn, s, 0, 0).processed == Extract(syn, s, 0, 0).processed;
  }

  /** Round trip: when the raw text holds no sentinel prefix, putting each block
      back in place of its placeholder, tags included, rebuilds the raw text. */
  lemma ThinkRoundTrip(markdown: string)
    requires NoSentinel(THINK, markdown)
    ensures Restore(THINK, ProcessThinkTagsInMarkdown(markdown).processed,
                    ProcessThinkTagsInMarkdown(markdown).blocks, Retag(THINK)) == markdown
  {
    ThinkSyntaxValid();
    RoundTrip(THINK, markdown);
  }

  /** FindSpan from the two searches it makes. */
  lemma FindSpanOf(syn: Syntax, s: string, pos: nat, o: nat, c: nat)
    requires pos <= |s| && IndexFrom(s, syn.open, pos) == Some(o)
    requires o + |syn.open| <= |s| && IndexFrom(s, syn.close, o + |syn.open|) == Some(c)
    ensures FindSpan(syn, s, pos) == Some(Span(o, c))
  {
  }

  lemma OpenAtStart(syn: Syntax, content: string, s: string)
    requires s == Wrap(syn, content)
    ensures IndexFrom(s, syn.open, 0) == Some(0)
  {
    assert OccursAt(s, 0, syn.open) by {
      forall k | 0 <= k < |syn.open| ensures s[k] == syn.open[k] {
      }
    }
    IndexFromAt(s, syn.open, 0, 0);
  }

  lemma CloseAtEnd(syn: Syntax, content: string, s: string)
    requires s == Wrap(syn, content)
    ensures OccursAt(s, |syn.open| + |content|, syn.close)
  {
    var c := |syn.open| + |content|;
    forall k | 0 <= k < |syn.close| ensures s[c + k] == syn.close[k] {
    }
  }

  lemma NoCloseInside(syn: Syntax, content: string, s: string)
    requires s == Wrap(syn, content)
    requires NoBorder(syn.close)
    requires forall j :: !OccursAt(content, j, syn.close)
    ensures forall j :: |syn.open| <= j < |syn.open| + |content| ==> !OccursAt(s, j, syn.close)
  {
    forall j | |syn.open| <= j < |syn.open| + |content| ensures !OccursAt(s, j, syn.close) {
      NoOccurrenceAfterPrefix(syn.open, content, syn.close, j);
    }
  }

  /** A self-overlap-free `p` that does not occur in `x` occurs nowhere inside
      `x` in `a + x + p`, not even straddling the end of `x`. */
  lemma NoOccurrenceAfterPrefix(a: string, x: string, p: string, j: int)
    requires NoBorder(p)
    requires forall i :: !OccursAt(x, i, p)
    requires |a| <= j < |a| + |x|
    ensures !OccursAt(a + x + p, j, p)
  {
    var tail := x + p;
    assert a + x + p == a + tail;
    assert StartsWith(p, p);
    NoOccurrenceAcrossBoundary(p, x, p, j - |a|);
    OccursAtShift(a, tail, j - |a|, p);
  }

  /** An opening tag at the start and a first closing tag at `c` after it make
      the match from 0. */
  lemma SpanFromStart(syn: Syntax, s: string, c: nat)
    requires IndexFrom(s, syn.open, 0) == Some(0)
    requires |syn.open| <= c && OccursAt(s, c, syn.close)
    requires forall j :: |syn.open| <= j < c ==> !OccursAt(s, j, syn.close)
    ensures FindSpan(syn, s, 0) == Some(Span(0, c))
  {
    IndexFromAt(s, syn.close, |syn.open|, c);
    FindSpanOf(syn, s, 0, 0, c);
  }

  /** A lone tagged span whose content holds no closing tag extracts to its
      placeholder and a single block, numbered 0, holding the content. */
  lemma SingleSpan(syn: Syntax, content: string)
    requires syn.open != [] && NoBorder(syn.close)
    requires forall j :: !OccursAt(content, j, syn.close)
    ensures Extract(syn, Wrap(syn, content), 0, 0) == Extraction(Placeholder(syn, 0), [ThinkBlock(0, content)])
  {
    var s := Wrap(syn, content);
    var sp := Span(0, |syn.open| + |content|);
    OpenAtStart(syn, content, s);
    CloseAtEnd(syn, content, s);
    NoCloseInside(syn, content, s);
    SpanFromStart(syn, s, sp.close);
    ExtractNone(syn, s, |s|, 1);
    ExtractBlocks(syn, s, 0, 0, sp, |s|);
    ExtractStep(syn, s, 0, 0, sp, |s|);
    assert s[sp.open + |syn.open|..sp.close] == content;
    assert s[..0] == [] && s[|s|..] == [];
  }
}
